=== FILE: README.md ===
# d2-isup in Dafny

d2-isup tells players whether the Destiny 2 servers are in maintenance. It has two parts.

- **Ingestion scripts (Go).**
  - One script scrapes Bungie's server-status article. It strips the markup of attributes, asks a language model to turn the text into maintenance records, and writes them out as `data.json`.
  - The other script fetches a Mastodon RSS feed, keeps only the posts about Destiny 2, and sends them to a chat-completion endpoint. That endpoint returns the same records. The script makes at most three calls: the first one and up to two retries.
- **Status page (JavaScript).**
  - It loads the records and finds which maintenances are in progress.
  - It decides whether the servers are down.
  - It computes the hour-aligned window the chart shows.
  - It builds links that change one URL setting: the clock `mode` and the number of hours the chart covers (`end`).

This project models the pure logic of both parts and proves what it promises. The I/O around that logic becomes inputs of the model:
- the environment variable;
- the clock;
- the sequence of outcomes the remote endpoint gives;
- the JSON and XML codecs, as abstract functions that either succeed or fail.

Modules:
- `Completion`: the prompt, the retry loop and the decoding in `ParseGemini`.
- `RssFilter`: the feed filter of `GetRss`.
- `HtmlTree` and `Ingest`: the attribute-stripping walk, the fix-up of the instruction text, and reading the first text part of the answer, all in the scraping `main`.
- `StatusPage`: `root()` and `init()`.
- `UrlConfig`: `getUrlConfig` and `getTimeFormatOpt`.
- Supporting modules:
  - `Records`: the record type.
  - `Rfc3339`: the timestamp the prompt receives.
  - `Strings`: Go's `ReplaceAll`, `Contains` and `ToLower`.
  - `Seqs`: filtering and subsequences.
  - `JsObjects`: object key order, assignment (including the inherited `__proto__` setter) and spread.
  - `FormEncoding`: `URLSearchParams` serialization.
  - `Decimal`: digit strings.
  - `Wrappers`: the `Option` and `Result` types.
  - `Bytes`: the octet type of Go's byte slices and of UTF-8.

Times on the status page are integer milliseconds since the epoch. A `Date` that is invalid, or a field that is missing, is `None`. Every comparison with such a value is false, as it is in JavaScript.

`ParseGemini` hands the answer text to the decoder unchanged: it strips no Markdown code fence.

## Model

| member | source | states |
|---|---|---|
| Rfc3339.EpochText | scripts/main.go:35 | The "unknown" time is printed exactly as `1970-01-01T00:00:00Z`. |
| Rfc3339.FormatAlphabet | scripts/parse-gemini.go:38 | An RFC 3339 timestamp is non-empty. It starts with a digit or '-' and uses only digits and `+-:TZ`. So it cannot contain or start the date token. |
| Rfc3339.ParseFormat | scripts/parse-gemini.go:38 | Reading back a printed valid timestamp gives every field back: the timestamp format loses nothing. |
| Decimal.Padded | scripts/parse-gemini.go:38 | A zero-padded field has only digits. It has at least the requested width, exactly that width when the number fits, and its value is the number. |
| Decimal.ValueOfShow | _site/javascript/main.mjs:40 | The decimal text of a natural number reads back as that number. |
| Strings.ReplaceAll | scripts/parse-gemini.go:38 | A text without the pattern is unchanged. A replacement as long as the pattern keeps the length. |
| Strings.ReplaceAllRemovesPattern | scripts/parse-gemini.go:38 | No occurrence of the pattern is left. This holds when the replacement cannot start the pattern and the pattern cannot start the replacement, so none is assembled across a seam. |
| Strings.ReplaceAllSkipsPrefix | scripts/parse-gemini.go:38 | Text in which no occurrence of the pattern starts is copied through unchanged, and the scan goes on after it. |
| Strings.FirstOccurrence | scripts/get-rss.go:58 | For a pattern whose first character occurs in it only once, an occurrence is the first one when the text before it lacks the pattern. |
| Strings.ForeignSeamHidesNothing | scripts/get-rss.go:58-60 | Joining two texts that lack a word with a middle made of characters foreign to the word creates no occurrence of it. |
| Strings.ReplaceAllKeepsUncovered | scripts/main.go:170 | With a replacement as long as the pattern, a character covered by no occurrence keeps its place and its value. |
| Strings.ReplaceAllAtMatch | scripts/parse-gemini.go:38 | An occurrence at the front becomes the replacement, and the rest is processed after it. |
| Strings.ContainsIffOccurs | scripts/get-rss.go:60 | `Contains` holds exactly when the word occurs at some position. |
| Strings.ToLower | scripts/get-rss.go:57 | Lower-casing keeps the length, maps each character to its ASCII lower-case form (other characters stay), and leaves no upper-case ASCII letter. |
| Strings.LowerForgetsCase | scripts/get-rss.go:57 | Lower-casing an upper-cased text is the same as lower-casing the original, and lower-casing is idempotent. |
| Completion.RetryFrom | scripts/parse-gemini.go:40-70 | The loop makes at most three calls, and every call before the last one failed. An answer is the last call's choices. Giving up means all three calls failed. |
| Completion.RetryStopsAtFirstAnswer | scripts/parse-gemini.go:59-63 | If call k answers and the earlier calls failed, exactly k+1 calls are made and call k's answer is used. |
| Completion.RetryGivesUpIffAllFail | scripts/parse-gemini.go:72-74 | The loop gives up if and only if all three calls fail. |
| Completion.ErrorText | scripts/parse-gemini.go:23-87 | Every returned error has a message, and the panic has none. The decode and encode error messages end with the model's raw answer, verbatim. |
| Completion.SystemPromptHasNoPlaceholder | scripts/parse-gemini.go:38 | The system message has no `__CURRENT_DATE__` left. |
| Completion.SystemPromptWithoutPlaceholder | scripts/parse-gemini.go:38 | A prompt without the token is sent unchanged. |
| Completion.SystemPromptSplices | scripts/parse-gemini.go:38 | The first token becomes the timestamp. The text before it is kept as it is, and the rest is substituted in turn. |
| Completion.UserMessage | scripts/parse-gemini.go:50 | The user message is the feed text, unchanged, between "```xml\n" and "\n```". |
| Completion.Reconcile | scripts/parse-gemini.go:76-90 | Only the first choice is read, and an empty choice list is the indexing panic. A decode failure and an encode failure each carry their cause and the raw text. Success means the output is the encoding of exactly the decoded records. |
| Completion.Exchange | scripts/parse-gemini.go:22-90 | An empty key gives an error with no call made. At most three requests are sent, all identical. "max retries reached" is returned if and only if all three calls fail, and then exactly three were sent. When a call answers, the last request sent is the answering one and the result is the reconciliation of its choices. |
| Completion.ParseGemini | scripts/parse-gemini.go:19-91 | An empty key, and only an empty key, gives the missing-key error. At most three requests are sent. Each carries the fenced feed text, the substituted prompt and the model name. |
| Completion.CallsUntilFirstAnswer | scripts/parse-gemini.go:59-63 | With a key, the number of requests is the failures before the first answer plus one. |
| Completion.RequestsAreFixed | scripts/parse-gemini.go:43-55 | Every request `ParseGemini` sends carries the fenced feed text, the substituted prompt (free of the token), the model name, the token limit and the JSON-object response format. |
| Seqs.Filter | scripts/get-rss.go:56-63 | The filter keeps exactly the elements that pass, and never more elements than the input has. |
| Seqs.FilterIsSubsequence | scripts/get-rss.go:56-63 | The kept elements form an order-preserving subsequence of the input. |
| Seqs.FilterDropsOnlyRejected | scripts/get-rss.go:60-62 | An element missing from the result failed the test. |
| Seqs.FilterCounts | scripts/get-rss.go:56-63 | A kept element occurs in the result as often as in the input, and a rejected element does not occur at all. |
| Seqs.FilterSnoc | scripts/get-rss.go:56-63 | Filtering a list with one more element appends that element exactly when it passes. |
| RssFilter.FilterItems | scripts/get-rss.go:53-63 | The loop keeps each item whose cleaned description mentions Destiny 2, as often as the feed has it, and drops every other item. The kept items are the original items, in feed order. |
| RssFilter.FeedContent | scripts/get-rss.go:66-73 | The encoder sees only the kept items. Its failure is reported with the "failed to marshal xml: " prefix. |
| RssFilter.MatchIgnoresCase | scripts/get-rss.go:57 | Upper- or lower-casing a description does not change the decision. |
| RssFilter.CapitalisedMentionKept | scripts/get-rss.go:57-62 | A description that starts with "Destiny 2" is kept. |
| RssFilter.HelpLinkAloneDropped | scripts/get-rss.go:57-62 | A description whose only mention is the help link is dropped: when the text before the first link and the text after it do not mention Destiny 2 on their own, the whole description does not either. |
| RssFilter.CleanAroundHelpLink | scripts/get-rss.go:57-58 | Cleaning masks the first help link, only lower-cases the text before it, and cleans the text after it. |
| HtmlTree.RemoveAllAttributes | scripts/main.go:67-75 | No element anywhere keeps an attribute. Node types, data and children in order are unchanged, and non-element nodes keep their attributes. |
| HtmlTree.RemoveFixesExactlyBareTrees | scripts/main.go:67-75 | The walk leaves a tree unchanged if and only if no element in it has attributes. |
| HtmlTree.RemoveIsIdempotent | scripts/main.go:67-75 | Stripping twice gives the same tree as stripping once. |
| Ingest.FixInstructionLeavesNoQuoteFence | scripts/main.go:170 | After the fix-up the instruction contains no `'''`. |
| Ingest.FixInstructionOnlyTurnsQuotes | scripts/main.go:170 | The fix-up keeps the length. Each character is unchanged or is a quote turned into a backtick. |
| Ingest.FixInstructionTurnsFence | scripts/main.go:170 | The first `'''` becomes a full backtick fence, the text before it is kept, and the fix-up goes on after it. |
| Ingest.FixInstructionKeepsLoneQuotes | scripts/main.go:170 | A quote that belongs to no `'''`, such as an apostrophe, is kept in its place. |
| Ingest.FirstText | scripts/main.go:182-189 | A text part is found if and only if one exists, and it is the first one. |
| Ingest.ReadRecords | scripts/main.go:181-190 | No candidate, or no content, is fatal. Without a text part the records stay empty. Otherwise the first text part alone is decoded, and its failure is fatal. |
| Ingest.LaterPartsIgnored | scripts/main.go:182-189 | Parts after the first text part never affect the result. |
| UrlConfig.Get | _site/javascript/util.mjs:21-22 | A query parameter's value is the first value given for that name, or absent. |
| UrlConfig.GetUrlConfig | _site/javascript/util.mjs:17-24 | An absent or empty `mode` is "12h", and any other `mode` is used verbatim. An absent or empty `end` is 48, and any other `end` is its `parseInt` in base 10. |
| UrlConfig.ParseNumeral | _site/javascript/util.mjs:22 | A decimal numeral followed by a non-digit reads as its value. |
| UrlConfig.EndNumeral | _site/javascript/util.mjs:22 | An `end` written as a decimal numeral is its value. |
| UrlConfig.GetTimeFormatOpt | _site/javascript/util.mjs:2-8 | The 12-hour clock is used if and only if the `mode` parameter is absent, empty or "12h". "24h", or any other value, gives the 24-hour clock. Hours and minutes are numeric. |
| JsObjects.Find | _site/javascript/main.mjs:40 | A property lookup finds a key's value exactly when the key is present. |
| JsObjects.Set | _site/javascript/main.mjs:58 | Defining a property (as `acc[key] = new Date(...)` does for a time key, and as spread does for each key) sets that key and leaves every other key's value alone. A new key goes last, and an existing key keeps its place. |
| JsObjects.AssignPrimitive | _site/javascript/main.mjs:60 | Assigning a string to a plain object sets that key as `Set` does, except under `__proto__`: there the inherited setter ignores the string, and the object keeps its keys and values. |
| JsObjects.Spread | _site/javascript/main.mjs:33-36 | In `{...o, ...es}` a key of `es` takes the value from `es`, and any other key keeps its value from `o`. The keys of `o` come first, in their order, followed by the keys of `es` that `o` lacks, in the order of `es`. |
| FormEncoding.DecodeEncode | _site/javascript/main.mjs:38-43 | Percent-decoding an encoded component gives its bytes back. |
| FormEncoding.SerializeReadsBack | _site/javascript/main.mjs:38-43 | Splitting a serialized query at '&' and '=' and percent-decoding each half gives back the UTF-8 bytes of every name and value, in order. |
| FormEncoding.EncodedHasNoSeparators | _site/javascript/main.mjs:38-43 | An encoded name or value contains no '&' or '=', so the query string splits back into its pairs. |
| StatusPage.HourStart | _site/javascript/main.mjs:10-11 | The start of the hour is at or before now and less than an hour before it, and it is a local hour mark. |
| StatusPage.HourStartIsLatestMark | _site/javascript/main.mjs:10-11 | No later hour mark lies at or before now. |
| StatusPage.RootWindow | _site/javascript/main.mjs:5-16 | The reference time is the start of the current local hour. The window starts one hour before it, on a local hour mark. It spans the `end` parameter's number of hours, 48 when `end` is absent, and it has no end exactly when `end` is not a number. |
| StatusPage.Window | _site/javascript/main.mjs:10-16 | The window starts one hour before the start of the current hour. It spans `end` hours, and has no end when `end` is NaN. With `end` at least 2, it contains now. |
| StatusPage.ConvertInto | _site/javascript/main.mjs:56-64 | Conversion keeps every key in order, except `__proto__`, whose assignment onto `{}` creates no property. Each `_start`/`_end` field becomes a date, and every other field is copied. |
| StatusPage.ConvertedFields | _site/javascript/main.mjs:55-67 | A converted entry has a field exactly when the raw entry has one and the key is not `__proto__`. A time key holds the parsed date, and any other key holds the original string. |
| StatusPage.RecordKeys | _site/javascript/main.mjs:57 | The four time fields of a record are converted to dates, and the description is not. |
| StatusPage.ActiveIffWithinWindow | _site/javascript/main.mjs:69-73 | An entry is in progress if and only if both maintenance times are valid dates and today lies between them, both ends included. |
| StatusPage.ActiveMembers | _site/javascript/main.mjs:69-76 | The filtered entries are exactly the entries in progress. Some exist if and only if one entry is in progress. |
| StatusPage.StatusAt | _site/javascript/main.mjs:69-85 | The active entries are the entries in progress, each as often as in all entries, as an order-preserving subsequence of all entries. Under maintenance holds if and only if some entry is in progress. Servers down holds if and only if some entry in progress is also in its down period, so a down period of an inactive entry never counts. |
| StatusPage.ConvertedDecisions | _site/javascript/main.mjs:69-82 | An entry is in progress, or down, after conversion exactly when its raw fields parse and bracket today. |
| StatusPage.Init | _site/javascript/main.mjs:49-85 | The page lists the converted entries whose maintenance is in progress. It is under maintenance if and only if some downloaded entry's two maintenance times parse and bracket today. The servers are down if and only if such an entry's down times also do. |
| StatusPage.StringifyReadsBack | _site/javascript/main.mjs:40 | A number written into a link with `${…}` reads back through `parseInt(…, 10)` as the same number, NaN and negative numbers included. |
| StatusPage.MergedParams | _site/javascript/main.mjs:33-36 | A new parameter overrides the setting of the same name, the other settings keep their values, and `mode` and `end` stay first. |
| StatusPage.GetUrlWithConfig | _site/javascript/main.mjs:31-44 | The link is "?" followed by the form-encoded merged parameters, and reading the query back gives the UTF-8 of every merged name and value, in order. |

## Left out

- The HTTP requests are not modelled: TLS settings, status-code checks, timeouts and the randomised User-Agent. These are network I/O and randomness.
- RSS fetching and XML decoding are not modelled either. The filter starts from the decoded items, and each item carries only its description.
- The HTML parser and `article.Html()` serialisation come from foreign libraries. Only the attribute-stripping walk is modelled, over an inductive tree, and the trimming of the serialised text is left out.
- The chat and generative-model clients are not modelled. Each call is an outcome in a sequence, and a call past the end of the sequence fails.
- The two-second back-off and the log messages have no effect on any result.
- The `time.Time` representation and sub-second precision are left out. The RFC 3339 layout prints whole seconds.
- `encoding/json` and `encoding/xml` are abstract functions that succeed or fail. Their output format is not modelled, so neither is a JSON round trip of the records.
- `os.Getenv` and `os.WriteFile` are not modelled: the key is an input, and the returned bytes are the output.
- Strings.ToLower: maps ASCII letters only. Go's Unicode case mapping is not modelled.
- Rfc3339.ParseFormat: covers years 0 to 9999 and offsets under a day. Those are the values Go's JSON encoding accepts. The clock is an input, not read.
- The temperature is a real constant. Floating point is not modelled.
- `chart.mjs`, `chart-date-adapter.mjs` and `types.d.js` are left out: they are rendering, a date-library adapter and type annotations.
- `fetch`, the Alpine registration and locale date formatting are left out.
- `new Date(text)` is the `parseDate` parameter. JavaScript's date-string parsing is not modelled.
- JsObjects.Set: integer-like keys are not modelled. JavaScript lists those first.
- The raw entries are string-valued. Other JSON value types are not modelled.
- StatusPage.HourStart: takes the local offset as a fixed parameter. A daylight-saving change inside the hour is not modelled.
- Numbers beyond 2^53 are not modelled, and neither is the time-value clipping of `Date`.
- StatusPage.GetUrlWithConfig: states the query text, not the browser's URL handling.
- FormEncoding.DecodeEncode: the decoder is a reference definition. The page does decode its own query, through `URL.searchParams` in `getUrlConfig`, but that decoding is abstracted as the `Query` input of `UrlConfig.GetUrlConfig` and is not connected to this decoder.
- FormEncoding.SerializeReadsBack: `ParseForm` is a reference reader for the urlencoded parser of the WHATWG URL Standard. It is not connected to the `Query` input from which the page reads its settings. It differs from the standard's parser in two ways: it refuses a malformed percent escape, which the standard keeps as written, and it refuses a raw non-ASCII character, which the standard UTF-8 encodes.
- Go panics are modelled as values: `NoChoice` for indexing an empty choice list in `ParseGemini`, `NoCandidate` and `NoContent` for an empty candidate list and a nil content in the scraping `main`. In Go these end the program instead of returning.

=== FILE: bytes.dfy ===
/** Octets, as Go's `[]byte` and the UTF-8 encoding of the URL Standard see
    them. */
module Bytes {
  type Byte = b: int | 0 <= b < 256
}

=== FILE: completion.dfy ===
/** `ParseGemini`: build the prompt, ask the completion endpoint with a bounded
    retry loop, and decode the answer all-or-nothing into maintenance records.
    The endpoint, the clock and the JSON codec are inputs of the model. */
module Completion {
  import opened Wrappers
  import opened Strings
  import Rfc3339
  import Decimal
  import opened Records
  import opened Bytes

  /** The retry budget of the completion call. */
  const MaxAttempts: nat := 3

  /** The token of the prompt template that stands for the current time. */
  const DatePlaceholder := "__CURRENT_DATE__"

  const ModelName := "gemini-2.0-flash-lite"
  const Temperature: real := 0.6
  const MaxTokens: nat := 8000
  const ChoiceCount: nat := 1
  const RequestTimeoutSeconds: nat := 10

  /** One chat-completion request: the model, the sampling settings, the
      system and user messages, the JSON-object response format and the
      per-attempt timeout. */
  datatype Request = Request(
    model: string,
    temperature: real,
    maxTokens: nat,
    choices: nat,
    system: string,
    user: string,
    jsonObjectFormat: bool,
    timeoutSeconds: nat)

  /** What the endpoint does with one call: fail (transport error, non-2xx
      status, timeout), or answer with the text of each returned choice. */
  datatype Outcome = CallFailed(reason: string) | Completed(choices: seq<string>)

  /** The outcome of the `k`-th call (from 0); an endpoint that has nothing
      more to say fails the call. */
  function OutcomeAt(outcomes: seq<Outcome>, k: nat): Outcome {
    if k < |outcomes| then outcomes[k] else CallFailed("no response")
  }

  /** Calls made by the retry loop and, unless every call failed, the choices of
      the answering call. */
  datatype Attempts = Attempts(calls: nat, response: Option<seq<string>>)

  /** The retry loop after `failures` failed calls: call again while the
      budget lasts, stop at the first answer. */
  function RetryFrom(outcomes: seq<Outcome>, failures: nat): (a: Attempts)
    requires failures <= MaxAttempts
    ensures failures <= a.calls <= MaxAttempts
    ensures forall k :: failures <= k < a.calls - 1 ==> OutcomeAt(outcomes, k).CallFailed?
    ensures a.response.Some? ==>
      a.calls > failures && OutcomeAt(outcomes, a.calls - 1) == Completed(a.response.value)
    ensures a.response.None? ==>
      a.calls == MaxAttempts && forall k :: failures <= k < MaxAttempts ==> OutcomeAt(outcomes, k).CallFailed?
    decreases MaxAttempts - failures
  {
    if failures == MaxAttempts then Attempts(failures, None)
    else match OutcomeAt(outcomes, failures)
      case Completed(choices) => Attempts(failures + 1, Some(choices))
      case CallFailed(_) => RetryFrom(outcomes, failures + 1)
  }

  function Retry(outcomes: seq<Outcome>): Attempts {
    RetryFrom(outcomes, 0)
  }

  /** The loop stops at the first answer: calls made are the failures before
      it plus one, and the answer is that call's. */
  lemma RetryStopsAtFirstAnswer(outcomes: seq<Outcome>, k: nat)
    requires k < MaxAttempts && OutcomeAt(outcomes, k).Completed?
    requires forall j :: 0 <= j < k ==> OutcomeAt(outcomes, j).CallFailed?
    ensures Retry(outcomes) == Attempts(k + 1, Some(OutcomeAt(outcomes, k).choices))
  {
  }

  /** The loop gives up exactly when every call of the budget failed. */
  lemma RetryGivesUpIffAllFail(outcomes: seq<Outcome>)
    ensures Retry(outcomes).response.None? <==>
      forall k :: 0 <= k < MaxAttempts ==> OutcomeAt(outcomes, k).CallFailed?
  {
    var a := Retry(outcomes);
    if a.response.Some? {
      assert OutcomeAt(outcomes, a.calls - 1).Completed?;
    }
  }

  /** How `ParseGemini` ends without output: an error it returns, or
      `NoChoice`, the runtime panic of indexing an empty choice list, after
      which it returns nothing. */
  datatype Error =
    | MissingApiKey
    | MaxRetriesReached
    | NoChoice
    | JsonParse(cause: string, raw: string)
    | JsonMarshal(cause: string, raw: string)

  /** The message of each returned error (none for the panic); decoding and
      encoding errors carry the raw model answer after the cause. */
  function ErrorText(e: Error): (msg: Option<string>)
    ensures msg.None? <==> e.NoChoice?
    ensures e.JsonParse? || e.JsonMarshal? ==> EndsWith(msg.value, e.raw)
  {
    match e
    case MissingApiKey => Some("failed to get GOOGLE_API_KEY env")
    case MaxRetriesReached => Some("max retries reached")
    case NoChoice => None
    case JsonParse(cause, raw) => Some("failed to json parse: " + cause + " \n\n" + raw)
    case JsonMarshal(cause, raw) => Some("failed to json marshal: " + cause + " \n\n" + raw)
  }

  /** The system prompt: every date token replaced by the RFC 3339 time. */
  function SystemPrompt(prompt: string, now: Rfc3339.DateTime): string {
    ReplaceAll(prompt, DatePlaceholder, Rfc3339.Format(now))
  }

  /** After substitution no date token is left, not even one assembled across
      a replaced timestamp. */
  lemma SystemPromptHasNoPlaceholder(prompt: string, now: Rfc3339.DateTime)
    ensures !Contains(SystemPrompt(prompt, now), DatePlaceholder)
  {
    var ts := Rfc3339.Format(now);
    Rfc3339.FormatAlphabet(now);
    TimestampCannotFormPlaceholder(ts);
    ReplaceAllRemovesPattern(prompt, DatePlaceholder, ts);
  }

  lemma TimestampCannotFormPlaceholder(ts: string)
    requires |ts| > 0 && Rfc3339.InAlphabet(ts) && (Decimal.IsDigit(ts[0]) || ts[0] == '-')
    ensures ts[0] !in DatePlaceholder && DatePlaceholder[0] !in ts
  {
    assert forall i :: 0 <= i < |DatePlaceholder| ==> DatePlaceholder[i] == '_' || 'A' <= DatePlaceholder[i] <= 'Z';
    forall i | 0 <= i < |ts|
      ensures ts[i] != '_'
    {
      assert ts[i] in Rfc3339.Alphabet;
    }
  }

  /** A prompt without the date token is sent as it is. */
  lemma SystemPromptWithoutPlaceholder(prompt: string, now: Rfc3339.DateTime)
    requires !Contains(prompt, DatePlaceholder)
    ensures SystemPrompt(prompt, now) == prompt
  {
  }

  /** Each date token becomes the timestamp and the text around it is kept:
      a prompt `a` in which no token starts, the token, then `t`. */
  lemma SystemPromptSplices(a: string, t: string, now: Rfc3339.DateTime)
    requires NoMatchStartsIn(a, DatePlaceholder + t, DatePlaceholder)
    ensures SystemPrompt(a + DatePlaceholder + t, now) == a + Rfc3339.Format(now) + SystemPrompt(t, now)
  {
    var ts := Rfc3339.Format(now);
    assert a + DatePlaceholder + t == a + (DatePlaceholder + t);
    ReplaceAllSkipsPrefix(a, DatePlaceholder + t, DatePlaceholder, ts);
    ReplaceAllAtMatch(t, DatePlaceholder, ts);
  }

  /** The user message: the feed text in an `xml` code fence. */
  function UserMessage(rssXml: string): (m: string)
    ensures StartsWith(m, "```xml\n") && EndsWith(m, "\n```")
    ensures |m| == |rssXml| + 11 && m[7..|m| - 4] == rssXml
  {
    "```xml\n" + rssXml + "\n```"
  }

  function BuildRequest(prompt: string, rssXml: string, now: Rfc3339.DateTime): Request {
    Request(ModelName, Temperature, MaxTokens, ChoiceCount,
            SystemPrompt(prompt, now), UserMessage(rssXml), true, RequestTimeoutSeconds)
  }

  /** What one run of `ParseGemini` observably does: the requests it sends,
      in order, and what it returns. */
  datatype Run = Run(requests: seq<Request>, result: Result<seq<Byte>, Error>)

  /** Decoding and re-encoding the answer: only the first choice is read, it
      is decoded all-or-nothing, and a failure keeps the raw text. */
  function Reconcile(
    choices: seq<string>,
    decode: string -> Result<seq<MaintenanceData>, string>,
    encode: seq<MaintenanceData> -> Result<seq<Byte>, string>): (r: Result<seq<Byte>, Error>)
    ensures r.Failure? ==> r.error.NoChoice? || r.error.JsonParse? || r.error.JsonMarshal?
    ensures r == Failure(NoChoice) <==> |choices| == 0
    ensures r.Failure? && r.error.JsonParse? ==>
      |choices| > 0 && r.error.raw == choices[0] && decode(choices[0]) == Failure(r.error.cause)
    ensures r.Failure? && r.error.JsonMarshal? ==>
      |choices| > 0 && r.error.raw == choices[0] && decode(choices[0]).Success? &&
      encode(decode(choices[0]).value) == Failure(r.error.cause)
    ensures r.Success? <==>
      |choices| > 0 && decode(choices[0]).Success? && encode(decode(choices[0]).value).Success?
    ensures r.Success? ==> encode(decode(choices[0]).value) == Success(r.value)
  {
    if |choices| == 0 then Failure(NoChoice)
    else
      var text := choices[0];
      match decode(text)
      case Failure(cause) => Failure(JsonParse(cause, text))
      case Success(records) =>
        match encode(records)
        case Failure(cause) => Failure(JsonMarshal(cause, text))
        case Success(bytes) => Success(bytes)
  }

  /** Everything `ParseGemini` does after building its request: check the
      key, send the request until an answer comes or the budget is spent,
      then decode and re-encode the answer. */
  function Exchange(
    apiKey: string, request: Request,
    outcomes: seq<Outcome>,
    decode: string -> Result<seq<MaintenanceData>, string>,
    encode: seq<MaintenanceData> -> Result<seq<Byte>, string>): (run: Run)
    ensures run.result == Failure(MissingApiKey) <==> apiKey == ""
    ensures apiKey == "" ==> run.requests == []
    ensures |run.requests| <= MaxAttempts
    ensures forall i :: 0 <= i < |run.requests| ==> run.requests[i] == request
    ensures run.result == Failure(MaxRetriesReached) <==>
      apiKey != "" && forall k :: 0 <= k < MaxAttempts ==> OutcomeAt(outcomes, k).CallFailed?
    ensures run.result == Failure(MaxRetriesReached) ==> |run.requests| == MaxAttempts
    ensures run.result.Failure? && (run.result.error.JsonParse? || run.result.error.JsonMarshal?) ==>
      |run.requests| > 0 && OutcomeAt(outcomes, |run.requests| - 1).Completed? &&
      run.result == Reconcile(OutcomeAt(outcomes, |run.requests| - 1).choices, decode, encode)
    ensures run.result.Success? ==>
      |run.requests| > 0 && OutcomeAt(outcomes, |run.requests| - 1).Completed? &&
      run.result == Reconcile(OutcomeAt(outcomes, |run.requests| - 1).choices, decode, encode)
    ensures apiKey != "" && (exists k :: 0 <= k < MaxAttempts && OutcomeAt(outcomes, k).Completed?) ==>
      |run.requests| > 0 && OutcomeAt(outcomes, |run.requests| - 1).Completed? &&
      run.result == Reconcile(OutcomeAt(outcomes, |run.requests| - 1).choices, decode, encode)
  {
    if apiKey == "" then Run([], Failure(MissingApiKey))
    else
      var attempts := Retry(outcomes);
      RetryGivesUpIffAllFail(outcomes);
      var sent := seq(attempts.calls, _ => request);
      match attempts.response
      case None => Run(sent, Failure(MaxRetriesReached))
      case Some(choices) => Run(sent, Reconcile(choices, decode, encode))
  }

  /** `ParseGemini(prompt, rssXml)` with the API key from the environment
      (empty when unset), the current time, the endpoint's outcomes for
      successive calls, and the JSON decoder and indenting encoder. */
  function ParseGemini(
    apiKey: string, prompt: string, rssXml: string, now: Rfc3339.DateTime,
    outcomes: seq<Outcome>,
    decode: string -> Result<seq<MaintenanceData>, string>,
    encode: seq<MaintenanceData> -> Result<seq<Byte>, string>): (run: Run)
    ensures run.result == Failure(MissingApiKey) <==> apiKey == ""
    ensures |run.requests| <= MaxAttempts
    ensures forall r :: r in run.requests ==>
      r.user == UserMessage(rssXml) && r.system == SystemPrompt(prompt, now) && r.model == ModelName
  {
    Exchange(apiKey, BuildRequest(prompt, rssXml, now), outcomes, decode, encode)
  }

  /** With a key, the endpoint is called once per failure before the first
      answer, plus once for the answer. */
  lemma CallsUntilFirstAnswer(
    apiKey: string, request: Request,
    outcomes: seq<Outcome>,
    decode: string -> Result<seq<MaintenanceData>, string>,
    encode: seq<MaintenanceData> -> Result<seq<Byte>, string>, k: nat)
    requires apiKey != ""
    requires k < MaxAttempts && OutcomeAt(outcomes, k).Completed?
    requires forall j :: 0 <= j < k ==> OutcomeAt(outcomes, j).CallFailed?
    ensures |Exchange(apiKey, request, outcomes, decode, encode).requests| == k + 1
  {
    RetryStopsAtFirstAnswer(outcomes, k);
  }

  /** Every attempt sends the same request: the fenced feed text as the user
      message and the substituted prompt, free of date tokens, as the system
      message. */
  lemma RequestsAreFixed(
    apiKey: string, prompt: string, rssXml: string, now: Rfc3339.DateTime,
    outcomes: seq<Outcome>,
    decode: string -> Result<seq<MaintenanceData>, string>,
    encode: seq<MaintenanceData> -> Result<seq<Byte>, string>)
    ensures forall r :: r in ParseGemini(apiKey, prompt, rssXml, now, outcomes, decode, encode).requests ==>
      && r.user == "```xml\n" + rssXml + "\n```"
      && r.system == SystemPrompt(prompt, now)
      && !Contains(r.system, DatePlaceholder)
      && r.model == ModelName && r.maxTokens == MaxTokens && r.jsonObjectFormat
  {
    SystemPromptHasNoPlaceholder(prompt, now);
  }
}

=== FILE: decimal.dfy ===
/** Decimal digit strings: printing naturals (as Go's `strconv` and JavaScript's
    number-to-string do for integers) and reading digit strings back. */
module Decimal {

  predicate IsDigit(c: char) {
    '0' <= c <= '9'
  }

  predicate AllDigits(s: string) {
    forall i :: 0 <= i < |s| ==> IsDigit(s[i])
  }

  function DigitChar(d: nat): (c: char)
    requires d < 10
    ensures IsDigit(c)
  {
    "0123456789"[d]
  }

  function DigitValue(c: char): (d: nat)
    requires IsDigit(c)
    ensures d < 10
  {
    c as int - '0' as int
  }

  lemma DigitRoundTrip(d: nat)
    requires d < 10
    ensures DigitValue(DigitChar(d)) == d
  {
    assert "0123456789"[d] as int == '0' as int + d;
  }

  /** Shortest decimal representation of `n` (no leading zeros except for 0 itself). */
  function Show(n: nat): (s: string)
    ensures |s| > 0 && AllDigits(s)
    ensures |s| > 1 ==> s[0] != '0'
  {
    if n < 10 then [DigitChar(n)] else Show(n / 10) + [DigitChar(n % 10)]
  }

  /** The number denoted by a string of decimal digits (most significant first). */
  function Value(s: string): nat
    requires AllDigits(s)
  {
    if |s| == 0 then 0 else Value(s[..|s| - 1]) * 10 + DigitValue(s[|s| - 1])
  }

  lemma {:induction false} ValueOfShow(n: nat)
    ensures Value(Show(n)) == n
  {
    DigitRoundTrip(n % 10);
    if n >= 10 {
      var s := Show(n);
      assert s[..|s| - 1] == Show(n / 10);
      ValueOfShow(n / 10);
    }
  }

  function Pow10(k: nat): (p: nat)
    ensures p >= 1
  {
    if k == 0 then 1 else 10 * Pow10(k - 1)
  }

  lemma {:induction false} ShowLength(n: nat, k: nat)
    ensures n < Pow10(k) ==> |Show(n)| <= k || (k == 0 && |Show(n)| == 1)
  {
    if k > 0 && n >= 10 && n < Pow10(k) {
      ShowLength(n / 10, k - 1);
    }
  }

  function Zeros(k: nat): (s: string)
    ensures |s| == k && AllDigits(s)
  {
    if k == 0 then [] else Zeros(k - 1) + ['0']
  }

  /** `n` in decimal, left-padded with zeros to at least `width` digits, as Go's
      time formatting pads fields such as the year (4) and the month (2). */
  function Padded(n: nat, width: nat): (s: string)
    ensures AllDigits(s) && |s| >= width && |s| > 0
    ensures n < Pow10(width) ==> |s| == width || (width == 0 && |s| == 1)
    ensures Value(s) == n
  {
    var d := Show(n);
    ShowLength(n, width);
    ValueOfShow(n);
    if |d| < width then
      ValueWithLeadingZeros(width - |d|, d);
      Zeros(width - |d|) + d
    else d
  }

  lemma {:induction false} ValueWithLeadingZeros(k: nat, d: string)
    requires AllDigits(d)
    ensures AllDigits(Zeros(k) + d) && Value(Zeros(k) + d) == Value(d)
    decreases |d|
  {
    var s := Zeros(k) + d;
    if |d| == 0 {
      assert s == Zeros(k);
      ValueOfZeros(k);
    } else {
      var d' := d[..|d| - 1];
      assert s[..|s| - 1] == Zeros(k) + d';
      ValueWithLeadingZeros(k, d');
    }
  }

  lemma {:induction false} ValueOfZeros(k: nat)
    ensures Value(Zeros(k)) == 0
  {
    if k > 0 {
      assert Zeros(k)[..k - 1] == Zeros(k - 1);
      ValueOfZeros(k - 1);
    }
  }
}

=== FILE: form_encoding.dfy ===
/** The application/x-www-form-urlencoded serializer of the WHATWG URL
    Standard, which `URLSearchParams.prototype.toString` uses: each name and
    value is UTF-8 encoded, bytes outside `*-._` and the ASCII alphanumerics are
    percent-encoded (a space becomes '+'), and pairs are joined by '&'. */
module FormEncoding {
  import opened Wrappers
  import opened Bytes

  /** The UTF-8 encoding of one Unicode scalar value (RFC 3629). */
  function Utf8(c: char): (bs: seq<Byte>)
    ensures 1 <= |bs| <= 4
  {
    var cp := c as int;
    assert cp <= 0x10FFFF;
    if cp < 0x80 then [cp]
    else if cp < 0x800 then [0xC0 + cp / 0x40, 0x80 + cp % 0x40]
    else if cp < 0x10000 then [0xE0 + cp / 0x1000, 0x80 + (cp / 0x40) % 0x40, 0x80 + cp % 0x40]
    else [0xF0 + cp / 0x40000, 0x80 + (cp / 0x1000) % 0x40, 0x80 + (cp / 0x40) % 0x40, 0x80 + cp % 0x40]
  }

  function Utf8String(s: string): seq<Byte> {
    if |s| == 0 then [] else Utf8(s[0]) + Utf8String(s[1..])
  }

  /** The bytes left as they are: ASCII alphanumerics and `*`, `-`, `.`, `_`. */
  predicate Unreserved(b: Byte) {
    || (0x30 <= b <= 0x39) || (0x41 <= b <= 0x5A) || (0x61 <= b <= 0x7A)
    || b == 0x2A || b == 0x2D || b == 0x2E || b == 0x5F
  }

  /** An upper-case hexadecimal digit. */
  function HexDigit(d: nat): (c: char)
    requires d < 16
    ensures HexValue(c) == Some(d)
  {
    if d < 10 then ('0' as int + d) as char else ('A' as int + d - 10) as char
  }

  function EncodeByte(b: Byte): string {
    if b == 0x20 then "+"
    else if Unreserved(b) then [b as char]
    else ['%', HexDigit(b / 16), HexDigit(b % 16)]
  }

  function EncodeBytes(bs: seq<Byte>): string {
    if |bs| == 0 then "" else EncodeByte(bs[0]) + EncodeBytes(bs[1..])
  }

  /** The form-urlencoded form of one name or value. */
  function Encode(s: string): string {
    EncodeBytes(Utf8String(s))
  }

  /** `name=value` pairs joined by '&'. */
  function Serialize(pairs: seq<(string, string)>): string {
    if |pairs| == 0 then ""
    else
      var first := Encode(pairs[0].0) + "=" + Encode(pairs[0].1);
      if |pairs| == 1 then first else first + "&" + Serialize(pairs[1..])
  }

  function HexValue(c: char): Option<nat> {
    if '0' <= c <= '9' then Some(c as int - '0' as int)
    else if 'A' <= c <= 'F' then Some(c as int - 'A' as int + 10)
    else if 'a' <= c <= 'f' then Some(c as int - 'a' as int + 10)
    else None
  }

  /** Percent-decoding of an encoded component back to its bytes: '+' is a
      space, `%XY` the byte 0xXY, any other ASCII character itself. */
  function DecodeBytes(t: string): Option<seq<Byte>> {
    if |t| == 0 then Some([])
    else
      var step: Option<(Byte, nat)> :=
        if t[0] == '+' then Some((0x20, 1))
        else if t[0] == '%' then
          if |t| >= 3 && HexValue(t[1]).Some? && HexValue(t[2]).Some?
          then Some((HexValue(t[1]).value * 16 + HexValue(t[2]).value, 3))
          else None
        else if (t[0] as int) < 0x80 then Some((t[0] as int, 1))
        else None;
      match step
      case None => None
      case Some((b, n)) =>
        match DecodeBytes(t[n..])
        case None => None
        case Some(rest) => Some([b] + rest)
  }

  lemma DecodeEncodedByte(b: Byte, t: string)
    ensures DecodeBytes(EncodeByte(b) + t) ==
      match DecodeBytes(t) case None => None case Some(rest) => Some([b] + rest)
  {
    var e := EncodeByte(b);
    var s := e + t;
    assert s[|e|..] == t;
  }

  /** Decoding an encoded component gives back its bytes. */
  lemma {:induction false} DecodeEncode(bs: seq<Byte>)
    ensures DecodeBytes(EncodeBytes(bs)) == Some(bs)
  {
    if |bs| > 0 {
      DecodeEncode(bs[1..]);
      DecodeEncodedByte(bs[0], EncodeBytes(bs[1..]));
      assert bs == [bs[0]] + bs[1..];
    }
  }

  /** An encoded component never contains the pair or name/value separators,
      so the serialized pairs can be split apart again. */
  lemma {:induction false} EncodedHasNoSeparators(bs: seq<Byte>)
    ensures '&' !in EncodeBytes(bs) && '=' !in EncodeBytes(bs)
  {
    if |bs| > 0 {
      EncodedHasNoSeparators(bs[1..]);
      ByteHasNoSeparators(bs[0]);
      assert EncodeBytes(bs) == EncodeByte(bs[0]) + EncodeBytes(bs[1..]);
    }
  }

  lemma ByteHasNoSeparators(b: Byte)
    ensures '&' !in EncodeByte(b) && '=' !in EncodeByte(b)
  {
  }

  /** `s` cut at every `sep`; a text without `sep` is one piece. */
  function SplitAt(s: string, sep: char): (pieces: seq<string>)
    ensures |pieces| > 0
    decreases |s|
  {
    if |s| == 0 then [""]
    else
      var tail := SplitAt(s[1..], sep);
      if s[0] == sep then [""] + tail else [[s[0]] + tail[0]] + tail[1..]
  }

  /** `s` cut at its first `sep`: the text before it and the text after it,
      or all of `s` and "" when there is no `sep`. */
  function CutAt(s: string, sep: char): (halves: (string, string))
    decreases |s|
  {
    if |s| == 0 then ("", "")
    else if s[0] == sep then ("", s[1..])
    else
      var (a, b) := CutAt(s[1..], sep);
      ([s[0]] + a, b)
  }

  /** The urlencoded parser of the WHATWG URL Standard on the pieces between
      '&': empty pieces are skipped, a piece is cut at its first '=', and
      both halves are percent-decoded to bytes. */
  function DecodePieces(pieces: seq<string>): Option<seq<(seq<Byte>, seq<Byte>)>> {
    if |pieces| == 0 then Some([])
    else
      match DecodePieces(pieces[1..])
      case None => None
      case Some(rest) =>
        if pieces[0] == "" then Some(rest)
        else
          var (name, value) := CutAt(pieces[0], '=');
          match (DecodeBytes(name), DecodeBytes(value))
          case (Some(n), Some(v)) => Some([(n, v)] + rest)
          case _ => None
  }

  /** Reading a query string back into name and value bytes. */
  function ParseForm(s: string): Option<seq<(seq<Byte>, seq<Byte>)>> {
    DecodePieces(SplitAt(s, '&'))
  }

  /** The UTF-8 bytes of each name and value. */
  function Utf8Pairs(pairs: seq<(string, string)>): (bs: seq<(seq<Byte>, seq<Byte>)>)
    ensures |bs| == |pairs|
    ensures forall i :: 0 <= i < |pairs| ==> bs[i] == (Utf8String(pairs[i].0), Utf8String(pairs[i].1))
  {
    seq(|pairs|, i requires 0 <= i < |pairs| => (Utf8String(pairs[i].0), Utf8String(pairs[i].1)))
  }

  lemma {:induction false} SplitAtFree(a: string, rest: string, sep: char)
    requires sep !in a
    ensures SplitAt(a + [sep] + rest, sep) == [a] + SplitAt(rest, sep)
    ensures SplitAt(a, sep) == [a]
    decreases |a|
  {
    if |a| == 0 {
      assert a + [sep] + rest == [sep] + rest;
      assert ([sep] + rest)[1..] == rest;
    } else {
      assert (a + [sep] + rest)[1..] == a[1..] + [sep] + rest;
      SplitAtFree(a[1..], rest, sep);
      assert [a[0]] + a[1..] == a;
    }
  }

  lemma {:induction false} CutAtFree(a: string, rest: string, sep: char)
    requires sep !in a
    ensures CutAt(a + [sep] + rest, sep) == (a, rest)
    decreases |a|
  {
    if |a| == 0 {
      assert a + [sep] + rest == [sep] + rest;
      assert ([sep] + rest)[1..] == rest;
    } else {
      assert (a + [sep] + rest)[1..] == a[1..] + [sep] + rest;
      CutAtFree(a[1..], rest, sep);
      assert [a[0]] + a[1..] == a;
    }
  }

  /** One serialized pair reads back as the UTF-8 bytes of its name and value. */
  lemma DecodePair(name: string, value: string, more: seq<string>)
    requires DecodePieces(more).Some?
    ensures DecodePieces([Encode(name) + "=" + Encode(value)] + more) ==
      Some([(Utf8String(name), Utf8String(value))] + DecodePieces(more).value)
  {
    var pieces := [Encode(name) + "=" + Encode(value)] + more;
    EncodedHasNoSeparators(Utf8String(name));
    CutAtFree(Encode(name), Encode(value), '=');
    DecodeEncode(Utf8String(name));
    DecodeEncode(Utf8String(value));
    assert pieces[1..] == more;
    assert pieces[0] != "" by {
      assert |pieces[0]| > |Encode(name)|;
    }
  }

  /** A single serialized pair reads back as its UTF-8 bytes. */
  lemma ReadsBackOne(name: string, value: string)
    ensures ParseForm(Encode(name) + "=" + Encode(value)) ==
      Some([(Utf8String(name), Utf8String(value))])
  {
    var first := Encode(name) + "=" + Encode(value);
    EncodedHasNoSeparators(Utf8String(name));
    EncodedHasNoSeparators(Utf8String(value));
    assert '&' !in first;
    SplitAtFree(first, "", '&');
    assert SplitAt(first, '&') == [first];
    assert DecodePieces([]) == Some([]);
    DecodePair(name, value, []);
    assert [first] + [] == [first];
    assert [(Utf8String(name), Utf8String(value))] + [] == [(Utf8String(name), Utf8String(value))];
  }

  /** A pair put in front of a serialized query with '&' reads back in front
      of what that query reads back as. */
  lemma ReadsBackCons(name: string, value: string, rest: string, tail: seq<(seq<Byte>, seq<Byte>)>)
    requires ParseForm(rest) == Some(tail)
    ensures ParseForm(Encode(name) + "=" + Encode(value) + "&" + rest) ==
      Some([(Utf8String(name), Utf8String(value))] + tail)
  {
    var first := Encode(name) + "=" + Encode(value);
    EncodedHasNoSeparators(Utf8String(name));
    EncodedHasNoSeparators(Utf8String(value));
    assert '&' !in first;
    SplitAtFree(first, rest, '&');
    DecodePair(name, value, SplitAt(rest, '&'));
  }

  /** `Utf8Pairs` converts the first pair in front of the rest. */
  lemma Utf8PairsCons(pairs: seq<(string, string)>)
    requires |pairs| > 0
    ensures Utf8Pairs(pairs) == [(Utf8String(pairs[0].0), Utf8String(pairs[0].1))] + Utf8Pairs(pairs[1..])
  {
  }

  /** A serialized query string reads back as the UTF-8 bytes of every name
      and value, in order: the pairs can be recovered from the text. */
  lemma {:induction false} SerializeReadsBack(pairs: seq<(string, string)>)
    ensures ParseForm(Serialize(pairs)) == Some(Utf8Pairs(pairs))
  {
    if |pairs| == 0 {
      assert SplitAt("", '&') == [""];
      assert DecodePieces([""]) == Some([]) by {
        assert DecodePieces([""][1..]) == Some([]);
      }
    } else if |pairs| == 1 {
      ReadsBackOne(pairs[0].0, pairs[0].1);
      Utf8PairsCons(pairs);
      assert pairs[1..] == [];
    } else {
      assert Serialize(pairs) == Encode(pairs[0].0) + "=" + Encode(pairs[0].1) + "&" + Serialize(pairs[1..]);
      SerializeReadsBack(pairs[1..]);
      ReadsBackCons(pairs[0].0, pairs[0].1, Serialize(pairs[1..]), Utf8Pairs(pairs[1..]));
      Utf8PairsCons(pairs);
    }
  }
}

=== FILE: html_tree.dfy ===
/** `removeAllAttributes`: the walk over the article's HTML tree that clears
    the attributes of every element before the markup goes to the model. */
module HtmlTree {

  /** The node types of an HTML parse tree. */
  datatype NodeType = ErrorNode | TextNode | DocumentNode | ElementNode | CommentNode | DoctypeNode | RawNode

  datatype Attribute = Attribute(namespace: string, key: string, val: string)

  /** A node: its type, its data (tag name or text), its attributes and its
      children in document order. */
  datatype Node = Node(kind: NodeType, data: string, attrs: seq<Attribute>, children: seq<Node>)

  /** No element anywhere in the tree carries an attribute. */
  predicate Bare(n: Node) {
    && (n.kind == ElementNode ==> n.attrs == [])
    && forall i :: 0 <= i < |n.children| ==> Bare(n.children[i])
  }

  /** `b` is `a` with some element attributes dropped: same node types, data
      and children in the same order, and non-element nodes keep their
      attributes. */
  predicate SameShape(a: Node, b: Node) {
    && a.kind == b.kind && a.data == b.data
    && (a.kind != ElementNode ==> a.attrs == b.attrs)
    && |a.children| == |b.children|
    && forall i :: 0 <= i < |a.children| ==> SameShape(a.children[i], b.children[i])
  }

  /** Clear the attributes of `n` if it is an element, then of each child. */
  function RemoveAllAttributes(n: Node): (r: Node)
    ensures Bare(r)
    ensures SameShape(n, r)
  {
    Node(n.kind, n.data,
         if n.kind == ElementNode then [] else n.attrs,
         seq(|n.children|, i requires 0 <= i < |n.children| => RemoveAllAttributes(n.children[i])))
  }

  /** A tree without element attributes is left exactly as it is, and only
      such a tree is: the walk changes nothing it need not change. */
  lemma {:induction false} RemoveFixesExactlyBareTrees(n: Node)
    ensures RemoveAllAttributes(n) == n <==> Bare(n)
  {
    var r := RemoveAllAttributes(n);
    if Bare(n) {
      forall i | 0 <= i < |n.children|
        ensures r.children[i] == n.children[i]
      {
        RemoveFixesExactlyBareTrees(n.children[i]);
      }
      assert r.children == n.children;
    }
  }

  /** Stripping twice is stripping once. */
  lemma RemoveIsIdempotent(n: Node)
    ensures RemoveAllAttributes(RemoveAllAttributes(n)) == RemoveAllAttributes(n)
  {
    RemoveFixesExactlyBareTrees(RemoveAllAttributes(n));
  }
}

=== FILE: ingest.dfy ===
/** The pieces of the page-scraping `main` that are pure: the system
    instruction's fence fix-up and the reading of the model's answer. */
module Ingest {
  import opened Wrappers
  import opened Strings
  import opened Records

  /** The instruction text writes its code fences with quotes because Go raw
      strings cannot hold backticks. */
  const QuoteFence := "'''"
  const BacktickFence := "```"

  /** `strings.ReplaceAll(systemInstruction, "'''", "```")`. */
  function FixInstruction(s: string): string {
    ReplaceAll(s, QuoteFence, BacktickFence)
  }

  /** After the fix-up no quote fence is left. */
  lemma FixInstructionLeavesNoQuoteFence(s: string)
    ensures !Contains(FixInstruction(s), QuoteFence)
  {
    ReplaceAllRemovesPattern(s, QuoteFence, BacktickFence);
  }

  /** The fix-up only turns quotes into backticks, character for character;
      every other character stays where it was. */
  lemma {:induction false} FixInstructionOnlyTurnsQuotes(s: string)
    ensures |FixInstruction(s)| == |s|
    ensures forall i :: 0 <= i < |s| ==>
      FixInstruction(s)[i] == s[i] || (s[i] == '\'' && FixInstruction(s)[i] == '`')
    decreases |s|
  {
    var r := FixInstruction(s);
    if StartsWith(s, QuoteFence) {
      var rest := s[3..];
      FixInstructionOnlyTurnsQuotes(rest);
      assert r == BacktickFence + FixInstruction(rest);
      forall i | 0 <= i < |s|
        ensures r[i] == s[i] || (s[i] == '\'' && r[i] == '`')
      {
        if i >= 3 {
          assert r[i] == FixInstruction(rest)[i - 3] && s[i] == rest[i - 3];
        } else {
          assert s[i] == QuoteFence[i];
        }
      }
    } else if |s| > 0 {
      var rest := s[1..];
      FixInstructionOnlyTurnsQuotes(rest);
      assert r == [s[0]] + FixInstruction(rest);
      forall i | 0 <= i < |s|
        ensures r[i] == s[i] || (s[i] == '\'' && r[i] == '`')
      {
        if i >= 1 {
          assert r[i] == FixInstruction(rest)[i - 1] && s[i] == rest[i - 1];
        }
      }
    }
  }

  /** The first quote fence of a text becomes a backtick fence: the text
      before it is kept and the fix-up goes on after it. */
  lemma FixInstructionTurnsFence(a: string, t: string)
    requires NoMatchStartsIn(a, QuoteFence + t, QuoteFence)
    ensures FixInstruction(a + QuoteFence + t) == a + BacktickFence + FixInstruction(t)
  {
    assert a + QuoteFence + t == a + (QuoteFence + t);
    ReplaceAllSkipsPrefix(a, QuoteFence + t, QuoteFence, BacktickFence);
    ReplaceAllAtMatch(t, QuoteFence, BacktickFence);
  }

  /** A quote that belongs to no quote fence keeps its place and its value,
      like the apostrophe of "don't". */
  lemma FixInstructionKeepsLoneQuotes(s: string, i: nat)
    requires i < |s|
    requires forall p: nat :: p <= i < p + |QuoteFence| ==> !OccursAt(s, QuoteFence, p)
    ensures |FixInstruction(s)| == |s| && FixInstruction(s)[i] == s[i]
  {
    ReplaceAllKeepsUncovered(s, QuoteFence, BacktickFence, i);
  }

  /** A part of a generated answer: text, or anything else (inline data, a
      function call, ...), which the reader skips. */
  datatype Part = Text(text: string) | NonText(kind: string)

  /** A candidate answer; `content` is absent when the model returned none. */
  datatype Candidate = Candidate(content: Option<seq<Part>>)

  /** The fatal outcomes of reading the answer. `NoCandidate` and `NoContent`
      are runtime panics (an empty candidate list, a nil content). */
  datatype ReadError = NoCandidate | NoContent | JsonParse(cause: string)

  /** The first text part, if any. */
  function FirstText(parts: seq<Part>): (t: Option<string>)
    ensures t.Some? <==> exists i :: 0 <= i < |parts| && parts[i].Text?
    ensures t.Some? ==> exists i ::
      (0 <= i < |parts| && parts[i] == Text(t.value) && forall j :: 0 <= j < i ==> parts[j].NonText?)
  {
    if |parts| == 0 then None
    else if parts[0].Text? then Some(parts[0].text)
    else FirstText(parts[1..])
  }

  /** The loop over the first candidate's parts: the first text part is
      decoded and ends the loop; with no text part the records stay empty. */
  function ReadRecords(
    candidates: seq<Candidate>,
    decode: string -> Result<seq<MaintenanceData>, string>): (r: Result<seq<MaintenanceData>, ReadError>)
    ensures |candidates| == 0 <==> r == Failure(NoCandidate)
    ensures |candidates| > 0 && candidates[0].content.None? <==> r == Failure(NoContent)
    ensures |candidates| > 0 && candidates[0].content.Some? ==>
      match FirstText(candidates[0].content.value)
      case None => r == Success([])
      case Some(t) =>
        && (r.Success? <==> decode(t).Success?)
        && (r.Success? ==> r.value == decode(t).value)
        && (r.Failure? ==> r.error == JsonParse(decode(t).error))
  {
    if |candidates| == 0 then Failure(NoCandidate)
    else match candidates[0].content
      case None => Failure(NoContent)
      case Some(parts) =>
        match FirstText(parts)
        case None => Success([])
        case Some(t) =>
          match decode(t)
          case Success(records) => Success(records)
          case Failure(cause) => Failure(JsonParse(cause))
  }

  /** Parts after the first text part are never looked at. */
  lemma {:induction false} LaterPartsIgnored(parts: seq<Part>, k: nat, more: seq<Part>)
    requires k < |parts| && parts[k].Text?
    ensures FirstText(parts[..k + 1] + more) == FirstText(parts)
  {
    if k > 0 && parts[0].NonText? {
      assert (parts[..k + 1] + more)[1..] == parts[1..][..k] + more;
      LaterPartsIgnored(parts[1..], k - 1, more);
    }
  }
}

=== FILE: js_objects.dfy ===
/** JavaScript plain objects with string keys, as ordered key/value lists:
    property lookup, assignment, and the `{...a, ...b}` spread. */
module JsObjects {
  import opened Wrappers

  predicate UniqueKeys<V>(o: seq<(string, V)>) {
    forall i, j :: 0 <= i < j < |o| ==> o[i].0 != o[j].0
  }

  /** An object: its own properties in insertion order, each key once.
      (Integer-like keys, which JavaScript lists first, are not modelled.) */
  type Object<V> = o: seq<(string, V)> | UniqueKeys(o) witness []

  function Keys<V>(o: seq<(string, V)>): (ks: seq<string>)
    ensures |ks| == |o| && forall i :: 0 <= i < |o| ==> ks[i] == o[i].0
  {
    seq(|o|, i requires 0 <= i < |o| => o[i].0)
  }

  /** The position of key `k`. */
  function IndexOf<V>(o: Object<V>, k: string): (i: nat)
    requires k in Keys(o)
    ensures i < |o| && o[i].0 == k
    ensures forall j :: 0 <= j < |o| && o[j].0 == k ==> j == i
  {
    var j :| 0 <= j < |o| && Keys(o)[j] == k;
    j
  }

  /** `o[k]`, or `None` for `undefined`. */
  function Find<V>(o: Object<V>, k: string): (v: Option<V>)
    ensures v.None? <==> k !in Keys(o)
    ensures forall i :: 0 <= i < |o| && o[i].0 == k ==> v == Some(o[i].1)
  {
    if k in Keys(o) then Some(o[IndexOf(o, k)].1) else None
  }

  /** The keys of an object are its first key followed by the rest's, which
      do not have that key again. */
  lemma KeysFirst<V>(o: Object<V>)
    requires |o| > 0
    ensures Keys(o) == [o[0].0] + Keys(o[1..]) && o[0].0 !in Keys(o[1..])
  {
    assert Keys(o) == [o[0].0] + Keys(o[1..]);
  }

  /** An object is its first property followed by the rest, which does not
      have that key again. */
  lemma FindFirst<V>(o: Object<V>)
    requires |o| > 0
    ensures Keys(o) == [o[0].0] + Keys(o[1..]) && o[0].0 !in Keys(o[1..])
    ensures forall k :: Find(o, k) == if k == o[0].0 then Some(o[0].1) else Find(o[1..], k)
  {
    var rest: Object<V> := o[1..];
    KeysFirst(o);
    forall k
      ensures Find(o, k) == if k == o[0].0 then Some(o[0].1) else Find(rest, k)
    {
      if k != o[0].0 && k in Keys(o) {
        var i := IndexOf(o, k);
        assert rest[i - 1] == o[i];
      }
    }
  }

  /** `o[k] = v`: an existing property keeps its place, a new one goes last. */
  function Set<V>(o: Object<V>, k: string, v: V): (r: Object<V>)
    ensures Find(r, k) == Some(v)
    ensures forall k' :: k' != k ==> Find(r, k') == Find(o, k')
    ensures k in Keys(o) ==> Keys(r) == Keys(o)
    ensures k !in Keys(o) ==> Keys(r) == Keys(o) + [k]
  {
    if k in Keys(o) then
      var i := IndexOf(o, k);
      var r := o[i := (k, v)];
      assert Keys(r) == Keys(o);
      r
    else
      var r := o + [(k, v)];
      assert Keys(r) == Keys(o) + [k];
      r
  }

  /** The one key a plain object inherits an accessor for: `Object.prototype`'s
      `__proto__` getter and setter. */
  const ProtoKey: string := "__proto__"

  /** `o[k] = v` on a plain object, for a `v` that is not an object: an
      ordinary [[Set]]. Under `__proto__` it calls the inherited setter,
      which ignores a value that is not an object, so no property appears;
      any other key is assigned as by `Set`. */
  function AssignPrimitive<V>(o: Object<V>, k: string, v: V): (r: Object<V>)
    ensures Find(r, k) == if k == ProtoKey then Find(o, k) else Some(v)
    ensures forall k' :: k' != k ==> Find(r, k') == Find(o, k')
    ensures k == ProtoKey || k in Keys(o) ==> Keys(r) == Keys(o)
    ensures k != ProtoKey && k !in Keys(o) ==> Keys(r) == Keys(o) + [k]
  {
    if k == ProtoKey then o else Set(o, k, v)
  }

  /** The keys that assigning a primitive under each of `ks` creates, in
      order: all but `__proto__`. */
  function AssignedKeys(ks: seq<string>): (r: seq<string>)
    ensures forall k :: k in r <==> k in ks && k != ProtoKey
    ensures |r| <= |ks|
  {
    if |ks| == 0 then []
    else (if ks[0] == ProtoKey then [] else [ks[0]]) + AssignedKeys(ks[1..])
  }

  /** The keys of `es` that `ks` lacks, in the order of `es`. */
  function AddedKeys(ks: seq<string>, es: seq<string>): (r: seq<string>)
    ensures forall k :: k in r <==> k in es && k !in ks
  {
    if |es| == 0 then []
    else (if es[0] in ks then [] else [es[0]]) + AddedKeys(ks, es[1..])
  }

  /** A key that `es` does not have can be added to `ks` without changing
      what `es` adds to it. */
  lemma {:induction false} AddedKeysIgnores(ks: seq<string>, x: string, es: seq<string>)
    requires x !in es
    ensures AddedKeys(ks + [x], es) == AddedKeys(ks, es)
    decreases |es|
  {
    if |es| > 0 {
      assert es[0] in ks + [x] <==> es[0] in ks;
      AddedKeysIgnores(ks, x, es[1..]);
    }
  }

  /** `{...o, ...es}`: the properties of `es` assigned one by one onto `o`. */
  function Spread<V>(o: Object<V>, es: Object<V>): (r: Object<V>)
    ensures forall k :: Find(r, k) == if k in Keys(es) then Find(es, k) else Find(o, k)
    ensures |Keys(o)| <= |Keys(r)| && Keys(r)[..|Keys(o)|] == Keys(o)
    ensures Keys(r)[|Keys(o)|..] == AddedKeys(Keys(o), Keys(es))
    decreases |es|
  {
    if |es| == 0 then o
    else
      var o' := Set(o, es[0].0, es[0].1);
      var rest: Object<V> := es[1..];
      var r := Spread(o', rest);
      SpreadStep(o, es, o', r);
      KeysFirst(es);
      AddedKeysStep(Keys(o), Keys(o'), Keys(r), es[0].0, Keys(rest));
      r
  }

  /** The keys added by a first key `k` and by the keys after it line up:
      `ko` are the keys before, `ko'` after assigning `k`. */
  lemma AddedKeysStep(ko: seq<string>, ko': seq<string>, kr: seq<string>, k: string, krest: seq<string>)
    requires k in ko ==> ko' == ko
    requires k !in ko ==> ko' == ko + [k]
    requires k !in krest
    requires |ko'| <= |kr| && kr[..|ko'|] == ko'
    requires kr[|ko'|..] == AddedKeys(ko', krest)
    ensures kr[|ko|..] == AddedKeys(ko, [k] + krest)
  {
    AddedKeysCons(ko, k, krest);
    if k !in ko {
      AddedKeysNew(ko, kr, k, krest);
    }
  }

  /** A key that `ko` lacks is added first. */
  lemma AddedKeysNew(ko: seq<string>, kr: seq<string>, k: string, krest: seq<string>)
    requires k !in krest
    requires |ko| + 1 <= |kr| && kr[..|ko| + 1] == ko + [k]
    requires kr[|ko| + 1..] == AddedKeys(ko + [k], krest)
    ensures kr[|ko|..] == [k] + AddedKeys(ko, krest)
  {
    var n := |ko|;
    AddedKeysIgnores(ko, k, krest);
    SliceCons(kr, n);
    assert kr[n] == k by {
      assert kr[..n + 1][n] == (ko + [k])[n];
    }
  }

  lemma AddedKeysCons(ks: seq<string>, k: string, es: seq<string>)
    ensures AddedKeys(ks, [k] + es) == (if k in ks then [] else [k]) + AddedKeys(ks, es)
  {
    assert ([k] + es)[1..] == es;
  }

  lemma SliceCons<T>(s: seq<T>, n: nat)
    requires n < |s|
    ensures s[n..] == [s[n]] + s[n + 1..]
  {
  }

  lemma SpreadStep<V>(o: Object<V>, es: Object<V>, o': Object<V>, r: Object<V>)
    requires |es| > 0 && o' == Set(o, es[0].0, es[0].1)
    requires forall k :: Find(r, k) == if k in Keys(es[1..]) then Find(es[1..], k) else Find(o', k)
    requires |Keys(o')| <= |Keys(r)| && Keys(r)[..|Keys(o')|] == Keys(o')
    ensures forall k :: Find(r, k) == if k in Keys(es) then Find(es, k) else Find(o, k)
    ensures |Keys(o)| <= |Keys(r)| && Keys(r)[..|Keys(o)|] == Keys(o)
  {
    FindFirst(es);
    PrefixOfPrefix(Keys(o), Keys(o'), Keys(r));
  }

  lemma PrefixOfPrefix<T>(a: seq<T>, b: seq<T>, c: seq<T>)
    requires |a| <= |b| && b[..|a|] == a
    requires |b| <= |c| && c[..|b|] == b
    ensures |a| <= |c| && c[..|a|] == a
  {
    assert c[..|a|] == b[..|a|];
  }
}

=== FILE: records.dfy ===
/** The one domain entity: an announced maintenance, as the ingestion script
    decodes it from the model's JSON answer and the status page reads it back. */
module Records {
  import Rfc3339

  /** Go's `MaintenanceData`: the maintenance window, the narrower period in
      which the servers are down, and a short description. The prompt asks
      the model to write an undetermined time as `Rfc3339.Epoch`; the code
      does not enforce this. */
  datatype MaintenanceData = MaintenanceData(
    maintenanceTimeStart: Rfc3339.DateTime,
    maintenanceTimeEnd: Rfc3339.DateTime,
    serverDownStart: Rfc3339.DateTime,
    serverDownEnd: Rfc3339.DateTime,
    description: string)

  /** The JSON keys of the five fields. */
  const MaintenanceStartKey := "maintenance_time_start"
  const MaintenanceEndKey := "maintenance_time_end"
  const ServerDownStartKey := "server_down_start"
  const ServerDownEndKey := "server_down_end"
  const DescriptionKey := "description"
}

=== FILE: rfc3339.dfy ===
/** Timestamps in the Internet date/time format of section 5.6 of RFC 3339,
    as Go's `time.RFC3339` layout ("2006-01-02T15:04:05Z07:00") prints them. */
module Rfc3339 {
  import opened Wrappers
  import opened Decimal

  /** A civil date and time together with its offset from UTC in minutes: the
      fields a Go `time.Time` reports through `Date`, `Clock` and `Zone`.
      Sub-second precision is not part of this model. */
  datatype DateTime = DateTime(
    year: int, month: nat, day: nat,
    hour: nat, minute: nat, second: nat,
    offsetMinutes: int)

  /** The ranges of a real civil time whose year has four digits and whose
      offset is less than a day. */
  predicate Valid(t: DateTime) {
    && 0 <= t.year <= 9999
    && 1 <= t.month <= 12 && 1 <= t.day <= 31
    && t.hour < 24 && t.minute < 60 && t.second < 60
    && -24 * 60 < t.offsetMinutes < 24 * 60
  }

  /** "1970-01-01T00:00:00Z": the value the extraction prompt prescribes for a
      date that cannot be determined. */
  const Epoch := DateTime(1970, 1, 1, 0, 0, 0, 0)

  /** Go's year field: at least four digits, a leading '-' for years before 0. */
  function YearText(y: int): string {
    if y < 0 then "-" + Padded(-y, 4) else Padded(y, 4)
  }

  /** Go's "Z07:00" zone field: "Z" at UTC, otherwise a signed hours:minutes offset. */
  function ZoneText(offset: int): string {
    if offset == 0 then "Z"
    else
      var a: nat := if offset < 0 then -offset else offset;
      (if offset < 0 then "-" else "+") + Padded(a / 60, 2) + ":" + Padded(a % 60, 2)
  }

  /** `full-date`: year, month and day joined by '-'. */
  function DateText(t: DateTime): string {
    YearText(t.year) + "-" + Padded(t.month, 2) + "-" + Padded(t.day, 2)
  }

  /** `partial-time`: hours, minutes and seconds joined by ':'. */
  function TimeText(t: DateTime): string {
    Padded(t.hour, 2) + ":" + Padded(t.minute, 2) + ":" + Padded(t.second, 2)
  }

  /** `t.Format(time.RFC3339)`. */
  function Format(t: DateTime): string {
    DateText(t) + "T" + TimeText(t) + ZoneText(t.offsetMinutes)
  }

  /** The characters an RFC 3339 timestamp printed by Go can contain. */
  const Alphabet := "0123456789+-:TZ"

  predicate InAlphabet(s: string) {
    forall i :: 0 <= i < |s| ==> s[i] in Alphabet
  }

  lemma DigitsInAlphabet(d: string)
    requires AllDigits(d)
    ensures InAlphabet(d)
  {
    forall i | 0 <= i < |d| ensures d[i] in Alphabet {
      assert d[i] == Alphabet[d[i] as int - '0' as int];
    }
  }

  lemma ConcatInAlphabet(a: string, b: string)
    requires InAlphabet(a) && InAlphabet(b)
    ensures InAlphabet(a + b)
  {
  }

  /** A formatted timestamp is non-empty, uses only digits, signs, ':', 'T' and
      'Z', and starts with a digit or a minus sign. */
  lemma FormatAlphabet(t: DateTime)
    ensures |Format(t)| > 0 && InAlphabet(Format(t))
    ensures IsDigit(Format(t)[0]) || Format(t)[0] == '-'
  {
    var d, h, z := DateText(t), TimeText(t), ZoneText(t.offsetMinutes);
    DateInAlphabet(t);
    TimeInAlphabet(t);
    ZoneInAlphabet(t.offsetMinutes);
    ConcatInAlphabet(d, "T");
    ConcatInAlphabet(d + "T", h);
    ConcatInAlphabet(d + "T" + h, z);
    assert Format(t)[0] == d[0];
  }

  lemma DateInAlphabet(t: DateTime)
    ensures InAlphabet(DateText(t))
    ensures IsDigit(DateText(t)[0]) || DateText(t)[0] == '-'
  {
    var y := YearText(t.year);
    YearInAlphabet(t.year);
    var mo, d := Padded(t.month, 2), Padded(t.day, 2);
    DigitsInAlphabet(mo);
    DigitsInAlphabet(d);
    ConcatInAlphabet(y, "-");
    ConcatInAlphabet(y + "-", mo);
    ConcatInAlphabet(y + "-" + mo, "-");
    ConcatInAlphabet(y + "-" + mo + "-", d);
    assert DateText(t)[0] == y[0];
  }

  lemma YearInAlphabet(year: int)
    ensures |YearText(year)| > 0 && InAlphabet(YearText(year))
    ensures IsDigit(YearText(year)[0]) || YearText(year)[0] == '-'
  {
    if year < 0 {
      DigitsInAlphabet(Padded(-year, 4));
      ConcatInAlphabet("-", Padded(-year, 4));
    } else {
      DigitsInAlphabet(Padded(year, 4));
    }
  }

  lemma TimeInAlphabet(t: DateTime)
    ensures InAlphabet(TimeText(t))
  {
    var h, mi, sec := Padded(t.hour, 2), Padded(t.minute, 2), Padded(t.second, 2);
    DigitsInAlphabet(h);
    DigitsInAlphabet(mi);
    DigitsInAlphabet(sec);
    ConcatInAlphabet(h, ":");
    ConcatInAlphabet(h + ":", mi);
    ConcatInAlphabet(h + ":" + mi, ":");
    ConcatInAlphabet(h + ":" + mi + ":", sec);
  }

  lemma ZoneInAlphabet(offset: int)
    ensures InAlphabet(ZoneText(offset))
  {
    if offset != 0 {
      var a: nat := if offset < 0 then -offset else offset;
      var sign := if offset < 0 then "-" else "+";
      var hh, mm := Padded(a / 60, 2), Padded(a % 60, 2);
      assert ZoneText(offset) == sign + hh + ":" + mm;
      DigitsInAlphabet(hh);
      DigitsInAlphabet(mm);
      ConcatInAlphabet(sign, hh);
      ConcatInAlphabet(sign + hh, ":");
      ConcatInAlphabet(sign + hh + ":", mm);
    }
  }

  /** The digits of `s[from..from + len]`, if they all are digits. */
  function Field(s: string, from: nat, len: nat): Option<nat>
    requires from + len <= |s|
  {
    var d := s[from..from + len];
    if AllDigits(d) then Some(Value(d)) else None
  }

  /** `time-offset` of section 5.6 of RFC 3339: "Z" or a signed hh:mm offset. */
  function ParseOffset(z: string): Option<int> {
    if z == "Z" || z == "z" then Some(0)
    else if |z| != 6 || !(z[0] == '+' || z[0] == '-') || z[3] != ':' then None
    else
      match (Field(z, 1, 2), Field(z, 4, 2))
      case (Some(h), Some(m)) =>
        var minutes: int := h * 60 + m;
        if h <= 23 && m <= 59 then Some(if z[0] == '-' then -minutes else minutes)
        else None
      case _ => None
  }

  /** `full-date` of section 5.6 of RFC 3339. */
  function ParseDate(s: string): Option<(nat, nat, nat)>
    requires |s| == 10
  {
    if s[4] != '-' || s[7] != '-' then None
    else
      match (Field(s, 0, 4), Field(s, 5, 2), Field(s, 8, 2))
      case (Some(y), Some(mo), Some(d)) =>
        if 1 <= mo <= 12 && 1 <= d <= 31 then Some((y, mo, d)) else None
      case _ => None
  }

  /** `partial-time` of section 5.6 of RFC 3339 without fractional seconds
      (a leap second 60 is admitted, as the grammar does). */
  function ParseTime(s: string): Option<(nat, nat, nat)>
    requires |s| == 8
  {
    if s[2] != ':' || s[5] != ':' then None
    else
      match (Field(s, 0, 2), Field(s, 3, 2), Field(s, 6, 2))
      case (Some(h), Some(mi), Some(sec)) =>
        if h <= 23 && mi <= 59 && sec <= 60 then Some((h, mi, sec)) else None
      case _ => None
  }

  /** `date-time` of section 5.6 of RFC 3339 without fractional seconds, the
      shape Go's `time.RFC3339` layout produces. */
  function Parse(s: string): Option<DateTime> {
    if |s| < 20 || !(s[10] == 'T' || s[10] == 't') then None
    else
      match (ParseDate(s[..10]), ParseTime(s[11..19]), ParseOffset(s[19..]))
      case (Some((y, mo, d)), Some((h, mi, sec)), Some(off)) =>
        Some(DateTime(y, mo, d, h, mi, sec, off))
      case _ => None
  }

  lemma PaddedTwo(n: nat)
    requires n < 100
    ensures |Padded(n, 2)| == 2
  {
    assert Pow10(2) == 100;
  }

  lemma ParseDateText(t: DateTime)
    requires Valid(t)
    ensures |DateText(t)| == 10
    ensures ParseDate(DateText(t)) == Some((t.year as nat, t.month, t.day))
  {
    assert Pow10(4) == 10000;
    PaddedTwo(t.month);
    PaddedTwo(t.day);
    var y, mo, d := YearText(t.year), Padded(t.month, 2), Padded(t.day, 2);
    var s := DateText(t);
    assert |y| == 4;
    assert s[0..4] == y && s[5..7] == mo && s[8..10] == d;
  }

  lemma ParseTimeText(t: DateTime)
    requires Valid(t)
    ensures |TimeText(t)| == 8
    ensures ParseTime(TimeText(t)) == Some((t.hour, t.minute, t.second))
  {
    PaddedTwo(t.hour);
    PaddedTwo(t.minute);
    PaddedTwo(t.second);
    var h, mi, sec := Padded(t.hour, 2), Padded(t.minute, 2), Padded(t.second, 2);
    var s := TimeText(t);
    assert s[0..2] == h && s[3..5] == mi && s[6..8] == sec;
  }

  lemma ParseZone(offset: int)
    requires -24 * 60 < offset < 24 * 60
    ensures ParseOffset(ZoneText(offset)) == Some(offset)
  {
    if offset != 0 {
      var a: nat := if offset < 0 then -offset else offset;
      var sign := if offset < 0 then '-' else '+';
      assert ZoneText(offset) == [sign] + Padded(a / 60, 2) + ":" + Padded(a % 60, 2);
      ParseSignedOffset(sign, a / 60, a % 60);
    }
  }

  /** A signed "hh:mm" offset reads back as its minutes. */
  lemma ParseSignedOffset(sign: char, h: nat, m: nat)
    requires sign == '+' || sign == '-'
    requires h <= 23 && m <= 59
    ensures ParseOffset([sign] + Padded(h, 2) + ":" + Padded(m, 2)) ==
      Some(if sign == '-' then -(h * 60 + m) else h * 60 + m)
  {
    PaddedTwo(h);
    PaddedTwo(m);
    var hh, mm := Padded(h, 2), Padded(m, 2);
    var z := [sign] + hh + ":" + mm;
    assert |z| == 6 && z[0] == sign && z[3] == ':';
    assert z[1..3] == hh && z[4..6] == mm;
    FieldOfPadded(z, 1, h);
    FieldOfPadded(z, 4, m);
    ParseOffsetOfFields(z, h, m);
  }

  lemma ParseOffsetOfFields(z: string, h: nat, m: nat)
    requires |z| == 6 && (z[0] == '+' || z[0] == '-') && z[3] == ':'
    requires Field(z, 1, 2) == Some(h) && Field(z, 4, 2) == Some(m)
    requires h <= 23 && m <= 59
    ensures ParseOffset(z) == Some(if z[0] == '-' then -(h * 60 + m) else h * 60 + m)
  {
    assert z != "Z" && z != "z";
  }

  lemma FieldOfPadded(s: string, from: nat, n: nat)
    requires n < 100 && from + 2 <= |s| && s[from..from + 2] == Padded(n, 2)
    ensures Field(s, from, 2) == Some(n)
  {
  }

  /** Reading back a printed valid timestamp recovers every field. */
  lemma ParseFormat(t: DateTime)
    requires Valid(t)
    ensures Parse(Format(t)) == Some(t)
  {
    ParseDateText(t);
    ParseTimeText(t);
    ParseZone(t.offsetMinutes);
    var d, h, z := DateText(t), TimeText(t), ZoneText(t.offsetMinutes);
    var s := Format(t);
    assert s[..10] == d && s[10] == 'T' && s[11..19] == h && s[19..] == z;
  }

  lemma EpochText()
    ensures Format(Epoch) == "1970-01-01T00:00:00Z"
  {
  }
}

=== FILE: rss_filter.dfy ===
/** The item filter of `GetRss`: keep the feed items whose description talks
    about Destiny 2, ignoring the help link every post carries. */
module RssFilter {
  import opened Wrappers
  import opened Strings
  import Seqs

  /** A feed item; only its description takes part in the filter. */
  datatype RssItem = RssItem(description: string)

  /** The help link whose path would otherwise match "destiny2". */
  const HelpLink := "bung.ie/destiny2help"
  const HelpLinkToken := "HELP_LINK"

  /** The description as the filter tests it: lower-cased, help link masked. */
  function CleanDescription(d: string): string {
    ReplaceAll(ToLower(d), HelpLink, HelpLinkToken)
  }

  predicate MentionsDestiny2(item: RssItem) {
    var c := CleanDescription(item.description);
    Contains(c, "destiny 2") || Contains(c, "destiny2")
  }

  /** The loop of `GetRss` that appends each matching item: it keeps exactly
      the matching items, unmodified and in feed order. */
  method FilterItems(items: seq<RssItem>) returns (filtered: seq<RssItem>)
    ensures forall x :: multiset(filtered)[x] == if MentionsDestiny2(x) then multiset(items)[x] else 0
    ensures Seqs.IsSubsequence(filtered, items)
  {
    filtered := [];
    var i := 0;
    while i < |items|
      invariant 0 <= i <= |items|
      invariant filtered == Seqs.Filter(MentionsDestiny2, items[..i])
    {
      Seqs.FilterSnoc(MentionsDestiny2, items[..i], items[i]);
      assert items[..i + 1] == items[..i] + [items[i]];
      if MentionsDestiny2(items[i]) {
        filtered := filtered + [items[i]];
      }
      i := i + 1;
    }
    assert items[..i] == items;
    Seqs.FilterIsSubsequence(MentionsDestiny2, items);
    forall x {
      Seqs.FilterCounts(MentionsDestiny2, items, x);
    }
  }

  /** The end of `GetRss`: the kept items, XML-encoded by `encode`, or the
      encoder's error behind the function's own prefix. */
  function FeedContent(items: seq<RssItem>, encode: seq<RssItem> -> Result<string, string>): (r: Result<string, string>)
    ensures var kept := Seqs.Filter(MentionsDestiny2, items);
      && (r.Success? <==> encode(kept).Success?)
      && (r.Success? ==> r.value == encode(kept).value)
      && (r.Failure? ==> r.error == "failed to marshal xml: " + encode(kept).error)
  {
    match encode(Seqs.Filter(MentionsDestiny2, items))
    case Success(xml) => Success(xml)
    case Failure(cause) => Failure("failed to marshal xml: " + cause)
  }

  /** The filter does not depend on the case the description is written in. */
  lemma MatchIgnoresCase(d: string)
    ensures MentionsDestiny2(RssItem(ToUpper(d))) == MentionsDestiny2(RssItem(d))
    ensures MentionsDestiny2(RssItem(ToLower(d))) == MentionsDestiny2(RssItem(d))
  {
    LowerForgetsCase(d);
  }

  /** A description opening with a capitalised "Destiny 2" is kept. */
  lemma CapitalisedMentionKept(rest: string)
    ensures MentionsDestiny2(RssItem("Destiny 2" + rest))
  {
    ToLowerConcat("Destiny 2", rest);
    assert ToLower("Destiny 2") == "destiny 2";
    ForeignPrefixMatchesNothing("destiny 2", ToLower(rest), HelpLink);
    ReplaceAllSkipsPrefix("destiny 2", ToLower(rest), HelpLink, HelpLinkToken);
    assert StartsWith(CleanDescription("Destiny 2" + rest), "destiny 2");
  }

  /** A mention that exists only inside the help link is dropped: when
      neither the text before the link nor the text after it mentions
      Destiny 2 on its own, and the link is the first one, the whole
      description does not either; the mask cannot join the two halves
      into a mention. */
  lemma HelpLinkAloneDropped(before: string, after: string)
    requires !Contains(ToLower(before), HelpLink)
    requires !MentionsDestiny2(RssItem(before)) && !MentionsDestiny2(RssItem(after))
    ensures !MentionsDestiny2(RssItem(before + HelpLink + after))
  {
    var a, r := ToLower(before), CleanDescription(after);
    CleanAroundHelpLink(before, after);
    assert CleanDescription(before) == a;
    var c := CleanDescription(before + HelpLink + after);
    assert c == a + HelpLinkToken + r;
    TokenForeignTo("destiny 2");
    TokenForeignTo("destiny2");
    ForeignSeamHidesNothing(a, HelpLinkToken, r, "destiny 2");
    ForeignSeamHidesNothing(a, HelpLinkToken, r, "destiny2");
  }

  /** The mask is upper-case, so no character of it is in a lower-case word. */
  lemma TokenForeignTo(w: string)
    requires forall i :: 0 <= i < |w| ==> !('A' <= w[i] <= 'Z' || w[i] == '_')
    ensures forall i :: 0 <= i < |HelpLinkToken| ==> HelpLinkToken[i] !in w
  {
    assert forall i :: 0 <= i < |HelpLinkToken| ==> 'A' <= HelpLinkToken[i] <= 'Z' || HelpLinkToken[i] == '_';
  }

  /** Cleaning text around the first help link masks that link and cleans
      the rest; the text before it is only lower-cased. */
  lemma CleanAroundHelpLink(before: string, after: string)
    requires !Contains(ToLower(before), HelpLink)
    ensures CleanDescription(before + HelpLink + after) ==
      ToLower(before) + HelpLinkToken + CleanDescription(after)
  {
    var a, b := ToLower(before), ToLower(after);
    ToLowerConcat(before + HelpLink, after);
    ToLowerConcat(before, HelpLink);
    HelpLinkFacts();
    assert ToLower(before + HelpLink + after) == a + (HelpLink + b);
    assert StartsWith(HelpLink + b, HelpLink);
    FirstOccurrence(a, HelpLink + b, HelpLink);
    ReplaceAllSkipsPrefix(a, HelpLink + b, HelpLink, HelpLinkToken);
    ReplaceAllAtMatch(b, HelpLink, HelpLinkToken);
  }

  /** The help link is lower-case, and its first character occurs in it
      only once, so two links cannot overlap. */
  lemma HelpLinkFacts()
    ensures ToLower(HelpLink) == HelpLink
    ensures forall i :: 0 < i < |HelpLink| ==> HelpLink[i] != HelpLink[0]
  {
  }
}

=== FILE: seqs.dfy ===
/** Order-preserving selection from a sequence: Go's "append the items that
    pass" loop and JavaScript's `Array.prototype.filter`. */
module Seqs {

  /** `idx` picks the elements of `sub` out of `xs` at strictly increasing
      positions: `sub` is an order-preserving subsequence of `xs`. */
  predicate Embeds<T(==)>(idx: seq<nat>, sub: seq<T>, xs: seq<T>) {
    && |idx| == |sub|
    && (forall i :: 0 <= i < |idx| ==> idx[i] < |xs| && sub[i] == xs[idx[i]])
    && (forall i, j :: 0 <= i < j < |idx| ==> idx[i] < idx[j])
  }

  ghost predicate IsSubsequence<T>(sub: seq<T>, xs: seq<T>) {
    exists idx :: Embeds(idx, sub, xs)
  }

  /** The elements of `xs` satisfying `keep`, in their original order. */
  function Filter<T>(keep: T -> bool, xs: seq<T>): (r: seq<T>)
    ensures |r| <= |xs|
    ensures forall x :: x in r ==> x in xs && keep(x)
    ensures forall x :: x in xs && keep(x) ==> x in r
  {
    if |xs| == 0 then []
    else if keep(xs[0]) then [xs[0]] + Filter(keep, xs[1..])
    else Filter(keep, xs[1..])
  }

  /** The positions of `xs` whose elements satisfy `keep`, ascending. */
  function KeptPositions<T>(keep: T -> bool, xs: seq<T>): (idx: seq<nat>)
    ensures forall i :: 0 <= i < |idx| ==> idx[i] < |xs| && keep(xs[idx[i]])
  {
    if |xs| == 0 then []
    else
      var rest := Shift(KeptPositions(keep, xs[1..]));
      if keep(xs[0]) then [0] + rest else rest
  }

  function Shift(idx: seq<nat>): (r: seq<nat>)
    ensures |r| == |idx| && forall i :: 0 <= i < |idx| ==> r[i] == idx[i] + 1
  {
    seq(|idx|, i requires 0 <= i < |idx| => idx[i] + 1)
  }

  /** `Filter` keeps its elements in their original relative order: the kept
      positions embed the result into the input. */
  lemma {:induction false} FilterIsSubsequence<T>(keep: T -> bool, xs: seq<T>)
    ensures Embeds(KeptPositions(keep, xs), Filter(keep, xs), xs)
    ensures IsSubsequence(Filter(keep, xs), xs)
  {
    if |xs| > 0 {
      FilterIsSubsequence(keep, xs[1..]);
      assert xs == [xs[0]] + xs[1..];
      EmbedsUnderCons(KeptPositions(keep, xs[1..]), Filter(keep, xs[1..]), xs[0], xs[1..]);
    }
  }

  /** An embedding survives putting one more element in front of the input,
      whether or not that element is also put in front of the subsequence. */
  lemma EmbedsUnderCons<T>(idx: seq<nat>, sub: seq<T>, x: T, xs: seq<T>)
    requires Embeds(idx, sub, xs)
    ensures Embeds(Shift(idx), sub, [x] + xs)
    ensures Embeds([0] + Shift(idx), [x] + sub, [x] + xs)
  {
    var sh := Shift(idx);
    assert forall i :: 0 <= i < |sh| ==> ([x] + xs)[sh[i]] == xs[idx[i]];
  }

  /** Every position skipped by the filter holds an element `keep` rejects. */
  lemma {:induction false} FilterDropsOnlyRejected<T>(keep: T -> bool, xs: seq<T>, k: nat)
    requires k < |xs| && k !in KeptPositions(keep, xs)
    ensures !keep(xs[k])
  {
    if k > 0 {
      FilterDropsOnlyRejected(keep, xs[1..], k - 1);
    }
  }

  /** Filtering a growing prefix: the shape of the source loops' iteration. */
  lemma {:induction false} FilterSnoc<T>(keep: T -> bool, xs: seq<T>, x: T)
    ensures Filter(keep, xs + [x]) == Filter(keep, xs) + (if keep(x) then [x] else [])
  {
    if |xs| > 0 {
      assert (xs + [x])[1..] == xs[1..] + [x];
      FilterSnoc(keep, xs[1..], x);
    } else {
      assert xs + [x] == [x];
    }
  }

  /** Each element occurs in the result as often as in the input when it is
      kept, and not at all otherwise. */
  lemma {:induction false} FilterCounts<T>(keep: T -> bool, xs: seq<T>, x: T)
    ensures multiset(Filter(keep, xs))[x] == if keep(x) then multiset(xs)[x] else 0
  {
    if |xs| > 0 {
      FilterCounts(keep, xs[1..], x);
      assert xs == [xs[0]] + xs[1..];
      assert multiset(xs) == multiset([xs[0]]) + multiset(xs[1..]);
    }
  }
}

=== FILE: status_page.dfy ===
/** The status page's decisions (`root` and `init`): the chart window around
    the current hour, the conversion of the downloaded entries, which entries
    are in progress, whether the servers are down, and the links that change
    one URL setting. Times are integer milliseconds since the epoch. */
module StatusPage {
  import opened Wrappers
  import opened Strings
  import opened UrlConfig
  import opened JsObjects
  import Decimal
  import Seqs
  import FormEncoding
  import Records

  const OneHourMs: int := 60 * 60 * 1000

  /** `t` is a whole hour on the clock of a zone whose local time is
      `t + offsetMs`. */
  predicate IsHourMark(t: int, offsetMs: int) {
    (t + offsetMs) % OneHourMs == 0
  }

  /** The start of the local hour containing `t`, for a zone whose local time
      is `t + offsetMs` (JavaScript's `setMinutes(0, 0, 0)`). */
  function HourStart(t: int, offsetMs: int): (r: int)
    ensures r <= t < r + OneHourMs
    ensures IsHourMark(r, offsetMs)
  {
    t - (t + offsetMs) % OneHourMs
  }

  /** The start of the hour is the latest local hour mark not after `t`. */
  lemma HourStartIsLatestMark(t: int, offsetMs: int, m: int)
    requires IsHourMark(m, offsetMs) && m <= t
    ensures m <= HourStart(t, offsetMs)
  {
    var r := HourStart(t, offsetMs);
    var q1, q2 := (m + offsetMs) / OneHourMs, (r + offsetMs) / OneHourMs;
    assert m - r == (q1 - q2) * OneHourMs;
    assert (q1 - q2) * OneHourMs < OneHourMs;
  }

  /** The hour mark before an hour mark. */
  lemma MarkBefore(x: int, offsetMs: int)
    requires IsHourMark(x, offsetMs)
    ensures IsHourMark(x - OneHourMs, offsetMs)
  {
    var y := x + offsetMs;
    assert y - OneHourMs == (y / OneHourMs - 1) * OneHourMs;
  }

  /** The window the chart shows. `daysAfter` is `None` when `end` is NaN
      (an invalid `Date`). */
  datatype ChartWindow = ChartWindow(todayRef: int, daysBefore: int, daysAfter: Option<int>)

  /** `root()`: one hour before the current hour up to `end` hours after that. */
  function Window(today: int, offsetMs: int, end: JsNumber): (w: ChartWindow)
    ensures w.todayRef <= today < w.todayRef + OneHourMs
    ensures IsHourMark(w.todayRef, offsetMs)
    ensures w.daysBefore == w.todayRef - OneHourMs
    ensures IsHourMark(w.daysBefore, offsetMs)
    ensures w.daysAfter.Some? <==> end.Int?
    ensures end.Int? ==> w.daysAfter.value - w.daysBefore == end.value * OneHourMs
    ensures end.Int? && end.value >= 2 ==> w.daysBefore < today < w.daysAfter.value
  {
    var todayRef := HourStart(today, offsetMs);
    var daysBefore := todayRef - OneHourMs;
    MarkBefore(todayRef, offsetMs);
    ChartWindow(todayRef, daysBefore,
                if end.Int? then Some(daysBefore + end.value * OneHourMs) else None)
  }

  /** The window for the page URL's query: 48 hours from one hour before the
      current hour unless `end` says otherwise, and no end for an `end` that
      is not a number. */
  function RootWindow(q: Query, today: int, offsetMs: int): (w: ChartWindow)
    ensures w.todayRef == HourStart(today, offsetMs)
    ensures w.daysBefore <= today - OneHourMs < w.daysBefore + OneHourMs
    ensures IsHourMark(w.daysBefore, offsetMs)
    ensures GetUrlConfig(q).end.Int? ==>
      w.daysAfter == Some(w.daysBefore + GetUrlConfig(q).end.value * OneHourMs)
    ensures Get(q, "end").None? ==> w.daysAfter == Some(w.daysBefore + 48 * OneHourMs)
    ensures w.daysAfter.None? <==> GetUrlConfig(q).end.NaN?
  {
    Window(today, offsetMs, GetUrlConfig(q).end)
  }

  /** A field of a downloaded entry after conversion: a time (`None` for an
      invalid `Date`) or the string it was. */
  datatype FieldValue = Time(ms: Option<int>) | Plain(text: string)

  type RawEntry = Object<string>
  type Entry = Object<FieldValue>

  predicate IsTimeKey(k: string) {
    EndsWith(k, "_start") || EndsWith(k, "_end")
  }

  function ConvertField(k: string, v: string, parseDate: string -> Option<int>): FieldValue {
    if IsTimeKey(k) then Time(parseDate(v)) else Plain(v)
  }

  /** The `reduce` over an entry's keys: each `_start`/`_end` field becomes a
      `Date` (through `parseDate`), every other field is copied. The copy is
      an assignment onto `{}`, so a `__proto__` field (which `JSON.parse`
      does make an own property) is lost. */
  function ConvertEntry(raw: RawEntry, parseDate: string -> Option<int>): (e: Entry)
    ensures Keys(e) == AssignedKeys(Keys(raw))
    decreases |raw|
  {
    ConvertInto([], raw, parseDate)
  }

  /** `__proto__` is not a time key, so its value is always copied as a string. */
  lemma ProtoKeyIsPlain()
    ensures !IsTimeKey(ProtoKey)
  {
    var p := ProtoKey;
    assert p[|p| - 6] != '_';
    assert p[|p| - 4] != '_';
  }

  function ConvertInto(acc: Entry, raw: RawEntry, parseDate: string -> Option<int>): (e: Entry)
    requires forall k :: k in Keys(acc) ==> k !in Keys(raw)
    ensures Keys(e) == Keys(acc) + AssignedKeys(Keys(raw))
    ensures forall k :: (Find(e, k) ==
      if k in Keys(raw) && k != ProtoKey then Some(ConvertField(k, Find(raw, k).value, parseDate))
      else Find(acc, k))
    decreases |raw|
  {
    if |raw| == 0 then acc
    else
      var k := raw[0].0;
      var rest: RawEntry := raw[1..];
      KeysFirst(raw);
      var acc' := ConvertOne(acc, k, raw[0].1, parseDate);
      var first: seq<string> := if k == ProtoKey then [] else [k];
      assert AssignedKeys(Keys(raw)) == first + AssignedKeys(Keys(rest));
      var e := ConvertInto(acc', rest, parseDate);
      Regroup(Keys(acc), first, AssignedKeys(Keys(rest)));
      ConvertStep(acc, raw, acc', e, parseDate);
      e
  }

  lemma Regroup<T>(a: seq<T>, b: seq<T>, c: seq<T>)
    ensures (a + b) + c == a + (b + c)
  {
  }

  /** The fields after converting the first one and then the rest are the
      fields of converting the whole entry. */
  lemma ConvertStep(acc: Entry, raw: RawEntry, acc': Entry, e: Entry, parseDate: string -> Option<int>)
    requires |raw| > 0 && raw[0].0 !in Keys(acc)
    requires Find(acc', raw[0].0) ==
      if raw[0].0 == ProtoKey then None else Some(ConvertField(raw[0].0, raw[0].1, parseDate))
    requires forall k :: k != raw[0].0 ==> Find(acc', k) == Find(acc, k)
    requires forall k :: (Find(e, k) ==
      if k in Keys(raw[1..]) && k != ProtoKey then Some(ConvertField(k, Find(raw[1..], k).value, parseDate))
      else Find(acc', k))
    ensures forall k :: (Find(e, k) ==
      if k in Keys(raw) && k != ProtoKey then Some(ConvertField(k, Find(raw, k).value, parseDate))
      else Find(acc, k))
  {
    FindFirst(raw);
  }

  /** `acc[key] = ...` for one field: a `Date` for a time key, the string
      itself otherwise (and then nothing for `__proto__`). */
  function ConvertOne(acc: Entry, k: string, v: string, parseDate: string -> Option<int>): (r: Entry)
    requires k !in Keys(acc)
    ensures Keys(r) == Keys(acc) + (if k == ProtoKey then [] else [k])
    ensures Find(r, k) == if k == ProtoKey then None else Some(ConvertField(k, v, parseDate))
    ensures forall k' :: k' != k ==> Find(r, k') == Find(acc, k')
  {
    ProtoKeyIsPlain();
    if IsTimeKey(k) then Set(acc, k, Time(parseDate(v)))
    else AssignPrimitive(acc, k, Plain(v))
  }

  /** Conversion keeps every key but `__proto__` and turns exactly the time
      keys into times. */
  lemma ConvertedFields(raw: RawEntry, parseDate: string -> Option<int>, k: string)
    ensures Find(ConvertEntry(raw, parseDate), k).None? <==> Find(raw, k).None? || k == ProtoKey
    ensures Find(raw, k).Some? && IsTimeKey(k) ==>
      Find(ConvertEntry(raw, parseDate), k) == Some(Time(parseDate(Find(raw, k).value)))
    ensures Find(raw, k).Some? && !IsTimeKey(k) && k != ProtoKey ==>
      Find(ConvertEntry(raw, parseDate), k) == Some(Plain(Find(raw, k).value))
  {
    ProtoKeyIsPlain();
  }

  /** A converted entry's time under `key`: `None` when the field is missing
      or is an invalid date, as comparisons with `undefined` or NaN are false. */
  function TimeOf(e: Entry, key: string): Option<int> {
    var f := Find(e, key);
    if f.Some? && f.value.Time? then f.value.ms else None
  }

  /** `start <= t && end >= t` on two `Date` fields. */
  predicate Within(start: Option<int>, end: Option<int>, t: int) {
    start.Some? && end.Some? && start.value <= t && t <= end.value
  }

  predicate IsActive(e: Entry, today: int) {
    Within(TimeOf(e, Records.MaintenanceStartKey), TimeOf(e, Records.MaintenanceEndKey), today)
  }

  predicate IsDown(e: Entry, today: int) {
    Within(TimeOf(e, Records.ServerDownStartKey), TimeOf(e, Records.ServerDownEndKey), today)
  }

  function ActiveAt(today: int): Entry -> bool {
    (e: Entry) => IsActive(e, today)
  }

  /** The four time fields of a record are all time keys, the description is not. */
  lemma RecordKeys()
    ensures IsTimeKey(Records.MaintenanceStartKey) && IsTimeKey(Records.MaintenanceEndKey)
    ensures IsTimeKey(Records.ServerDownStartKey) && IsTimeKey(Records.ServerDownEndKey)
    ensures !IsTimeKey(Records.DescriptionKey)
  {
    SuffixKey("maintenance_time", "_start");
    SuffixKey("maintenance_time", "_end");
    SuffixKey("server_down", "_start");
    SuffixKey("server_down", "_end");
    var d := Records.DescriptionKey;
    assert d[|d| - 6] == 'i' && d[|d| - 4] == 't';
  }

  lemma SuffixKey(stem: string, suffix: string)
    ensures EndsWith(stem + suffix, suffix)
  {
    assert (stem + suffix)[|stem|..] == suffix;
  }

  /** The downloaded entry has both fields, both parse as dates, and `today`
      lies between them, both ends included. */
  predicate RawWithin(raw: RawEntry, startKey: string, endKey: string, parseDate: string -> Option<int>, today: int) {
    && Find(raw, startKey).Some?
    && Find(raw, endKey).Some?
    && Within(parseDate(Find(raw, startKey).value), parseDate(Find(raw, endKey).value), today)
  }

  /** Comparing two converted time fields with `today` is comparing the
      parsed raw fields. */
  lemma WithinIffRaw(raw: RawEntry, startKey: string, endKey: string, parseDate: string -> Option<int>, today: int)
    requires IsTimeKey(startKey) && IsTimeKey(endKey)
    ensures Within(TimeOf(ConvertEntry(raw, parseDate), startKey), TimeOf(ConvertEntry(raw, parseDate), endKey), today) <==>
      RawWithin(raw, startKey, endKey, parseDate, today)
  {
    ConvertedFields(raw, parseDate, startKey);
    ConvertedFields(raw, parseDate, endKey);
  }

  /** An entry is in progress exactly when its maintenance window, both ends
      included, holds `today`. */
  lemma ActiveIffWithinWindow(raw: RawEntry, parseDate: string -> Option<int>, today: int)
    ensures IsActive(ConvertEntry(raw, parseDate), today) <==>
      && Find(raw, Records.MaintenanceStartKey).Some?
      && Find(raw, Records.MaintenanceEndKey).Some?
      && Within(parseDate(Find(raw, Records.MaintenanceStartKey).value),
                parseDate(Find(raw, Records.MaintenanceEndKey).value), today)
  {
    RecordKeys();
    WithinIffRaw(raw, Records.MaintenanceStartKey, Records.MaintenanceEndKey, parseDate, today);
  }

  /** A downloaded entry whose maintenance is in progress. */
  predicate InProgress(raw: RawEntry, parseDate: string -> Option<int>, today: int) {
    RawWithin(raw, Records.MaintenanceStartKey, Records.MaintenanceEndKey, parseDate, today)
  }

  /** A downloaded entry whose servers are down. */
  predicate DownNow(raw: RawEntry, parseDate: string -> Option<int>, today: int) {
    RawWithin(raw, Records.ServerDownStartKey, Records.ServerDownEndKey, parseDate, today)
  }

  /** The two decisions on a converted entry are the decisions on its raw
      fields. */
  lemma ConvertedDecisions(raw: RawEntry, parseDate: string -> Option<int>, today: int)
    ensures IsActive(ConvertEntry(raw, parseDate), today) <==> InProgress(raw, parseDate, today)
    ensures IsDown(ConvertEntry(raw, parseDate), today) <==> DownNow(raw, parseDate, today)
  {
    RecordKeys();
    WithinIffRaw(raw, Records.MaintenanceStartKey, Records.MaintenanceEndKey, parseDate, today);
    WithinIffRaw(raw, Records.ServerDownStartKey, Records.ServerDownEndKey, parseDate, today);
  }

  /** What `init()` leaves on the page besides the entries themselves. */
  datatype Status = Status(activeEntries: seq<Entry>, isMaintenance: bool, isServerDown: bool)

  /** `res.map(...)`: every downloaded entry converted, in order. */
  function ConvertAll(res: seq<RawEntry>, parseDate: string -> Option<int>): (all: seq<Entry>)
    ensures |all| == |res| && forall i :: 0 <= i < |res| ==> all[i] == ConvertEntry(res[i], parseDate)
  {
    seq(|res|, i requires 0 <= i < |res| => ConvertEntry(res[i], parseDate))
  }

  /** The decisions of `init()` over the converted entries: the entries in
      progress, in their order; under maintenance when some entry is in
      progress; servers down when an entry in progress is in its down period,
      so a down period of an entry not in progress never counts. */
  function StatusAt(all: seq<Entry>, today: int): (s: Status)
    ensures forall e :: e in s.activeEntries <==> e in all && IsActive(e, today)
    ensures s.isMaintenance <==> exists e :: e in all && IsActive(e, today)
    ensures s.isServerDown <==> exists e :: e in all && IsActive(e, today) && IsDown(e, today)
    ensures forall e :: multiset(s.activeEntries)[e] == if IsActive(e, today) then multiset(all)[e] else 0
    ensures Seqs.IsSubsequence(s.activeEntries, all)
  {
    var active := Seqs.Filter(ActiveAt(today), all);
    ActiveMembers(all, today);
    Seqs.FilterIsSubsequence(ActiveAt(today), all);
    if |active| > 0 then
      Status(active, true, exists e :: e in active && IsDown(e, today))
    else
      Status(active, false, false)
  }

  lemma ActiveMembers(all: seq<Entry>, today: int)
    ensures forall e :: e in Seqs.Filter(ActiveAt(today), all) <==> e in all && IsActive(e, today)
    ensures |Seqs.Filter(ActiveAt(today), all)| > 0 <==> exists e :: e in all && IsActive(e, today)
    ensures forall e :: (multiset(Seqs.Filter(ActiveAt(today), all))[e] ==
      if IsActive(e, today) then multiset(all)[e] else 0)
  {
    var active := Seqs.Filter(ActiveAt(today), all);
    forall e
      ensures e in active <==> e in all && IsActive(e, today)
      ensures multiset(active)[e] == if IsActive(e, today) then multiset(all)[e] else 0
    {
      assert ActiveAt(today)(e) == IsActive(e, today);
      Seqs.FilterCounts(ActiveAt(today), all, e);
    }
    if e :| e in all && IsActive(e, today) {
      assert e in active;
    }
  }

  /** `init()`: convert the downloaded entries, then decide. The page lists
      the converted entries whose maintenance is in progress, is under
      maintenance when a downloaded entry's maintenance is in progress, and
      shows the servers down when such an entry is also in its down period. */
  function Init(res: seq<RawEntry>, today: int, parseDate: string -> Option<int>): (s: Status)
    ensures forall e :: e in s.activeEntries <==>
      exists i :: 0 <= i < |res| && e == ConvertEntry(res[i], parseDate) && InProgress(res[i], parseDate, today)
    ensures s.isMaintenance <==> exists i :: 0 <= i < |res| && InProgress(res[i], parseDate, today)
    ensures s.isServerDown <==>
      exists i :: 0 <= i < |res| && InProgress(res[i], parseDate, today) && DownNow(res[i], parseDate, today)
  {
    var all := ConvertAll(res, parseDate);
    DecisionsAgree(res, all, today, parseDate);
    ActiveFromRaw(res, all, today, parseDate);
    MaintenanceFromRaw(res, all, today, parseDate);
    DownFromRaw(res, all, today, parseDate);
    StatusAt(all, today)
  }

  lemma DecisionsAgree(res: seq<RawEntry>, all: seq<Entry>, today: int, parseDate: string -> Option<int>)
    requires all == ConvertAll(res, parseDate)
    ensures forall i :: 0 <= i < |res| ==>
      && (IsActive(all[i], today) <==> InProgress(res[i], parseDate, today))
      && (IsDown(all[i], today) <==> DownNow(res[i], parseDate, today))
  {
    forall i | 0 <= i < |res|
      ensures IsActive(all[i], today) <==> InProgress(res[i], parseDate, today)
      ensures IsDown(all[i], today) <==> DownNow(res[i], parseDate, today)
    {
      ConvertedDecisions(res[i], parseDate, today);
    }
  }

  /** The entries `init()` keeps, restated on the downloaded entries. */
  lemma ActiveFromRaw(res: seq<RawEntry>, all: seq<Entry>, today: int, parseDate: string -> Option<int>)
    requires |all| == |res|
    requires forall i :: 0 <= i < |res| ==> all[i] == ConvertEntry(res[i], parseDate)
    requires forall i :: 0 <= i < |res| ==> (IsActive(all[i], today) <==> InProgress(res[i], parseDate, today))
    ensures forall e :: e in all && IsActive(e, today) <==>
      exists i :: 0 <= i < |res| && e == ConvertEntry(res[i], parseDate) && InProgress(res[i], parseDate, today)
  {
    forall e | e in all && IsActive(e, today)
      ensures exists i :: 0 <= i < |res| && e == ConvertEntry(res[i], parseDate) && InProgress(res[i], parseDate, today)
    {
      var i :| 0 <= i < |all| && all[i] == e;
    }
  }

  /** `init()`'s maintenance flag, restated on the downloaded entries. */
  lemma MaintenanceFromRaw(res: seq<RawEntry>, all: seq<Entry>, today: int, parseDate: string -> Option<int>)
    requires |all| == |res|
    requires forall i :: 0 <= i < |res| ==> (IsActive(all[i], today) <==> InProgress(res[i], parseDate, today))
    ensures (exists e :: e in all && IsActive(e, today)) <==>
      exists i :: 0 <= i < |res| && InProgress(res[i], parseDate, today)
  {
    if e :| e in all && IsActive(e, today) {
      var i :| 0 <= i < |all| && all[i] == e;
    }
    if i :| 0 <= i < |res| && InProgress(res[i], parseDate, today) {
      assert all[i] in all;
    }
  }

  /** `init()`'s servers-down flag, restated on the downloaded entries. */
  lemma DownFromRaw(res: seq<RawEntry>, all: seq<Entry>, today: int, parseDate: string -> Option<int>)
    requires |all| == |res|
    requires forall i :: 0 <= i < |res| ==>
      (IsActive(all[i], today) && IsDown(all[i], today)) ==
      (InProgress(res[i], parseDate, today) && DownNow(res[i], parseDate, today))
    ensures (exists e :: e in all && IsActive(e, today) && IsDown(e, today)) <==>
      exists i :: 0 <= i < |res| && InProgress(res[i], parseDate, today) && DownNow(res[i], parseDate, today)
  {
    if e :| e in all && IsActive(e, today) && IsDown(e, today) {
      var i :| 0 <= i < |all| && all[i] == e;
    }
    if i :| 0 <= i < |res| && InProgress(res[i], parseDate, today) && DownNow(res[i], parseDate, today) {
      assert all[i] in all;
    }
  }

  /** A value put into the query string: a string, a number or a boolean. */
  datatype ParamValue = Str(s: string) | Num(n: JsNumber) | Bool(b: bool)

  /** JavaScript's `${v}` for such a value. */
  function Stringify(v: ParamValue): string {
    match v
    case Str(s) => s
    case Num(NaN) => "NaN"
    case Num(Int(n)) => if n < 0 then "-" + Decimal.Show(-n) else Decimal.Show(n)
    case Bool(b) => if b then "true" else "false"
  }

  /** A number put into a link reads back through `parseInt(…, 10)` as the
      same number, NaN included: the `end` setting survives the round trip. */
  lemma StringifyReadsBack(x: JsNumber)
    ensures ParseInt10(Stringify(Num(x))) == x
  {
    match x
    case NaN =>
      ParseNaNText();
    case Int(n) =>
      if n >= 0 {
        ReadsShow(n);
      } else {
        ReadsNegatedShow(-n);
      }
  }

  function ConfigObject(c: Config): (o: Object<ParamValue>)
    ensures Keys(o) == ["mode", "end"]
    ensures Find(o, "mode") == Some(Str(c.mode)) && Find(o, "end") == Some(Num(c.end))
  {
    var o: seq<(string, ParamValue)> := [("mode", Str(c.mode)), ("end", Num(c.end))];
    assert Keys(o) == ["mode", "end"];
    o
  }

  /** `{...getUrlConfig(), ...newParams}` for the settings `config` read from
      the URL: each new parameter overrides the setting of that name, the
      other settings keep their values, and the settings stay first. */
  function MergedParams(config: Config, newParams: Object<ParamValue>): (m: Object<ParamValue>)
    ensures forall k :: Find(newParams, k).Some? ==> Find(m, k) == Find(newParams, k)
    ensures forall k :: Find(newParams, k).None? ==> Find(m, k) == Find(ConfigObject(config), k)
    ensures |m| >= 2 && Keys(m)[..2] == ["mode", "end"]
  {
    var c := ConfigObject(config);
    var m := Spread(c, newParams);
    assert Keys(m)[..|Keys(c)|] == Keys(c);
    m
  }

  function StringPairs(o: Object<ParamValue>): (ps: seq<(string, string)>)
    ensures |ps| == |o| && forall i :: 0 <= i < |o| ==> ps[i] == (o[i].0, Stringify(o[i].1))
  {
    seq(|o|, i requires 0 <= i < |o| => (o[i].0, Stringify(o[i].1)))
  }

  /** `getUrlWithConfig(newParams)`: "?" and the merged settings as a query
      string, from which the settings' names and values can be read back. */
  function GetUrlWithConfig(q: Query, newParams: Object<ParamValue>): (url: string)
    ensures |url| > 0 && url[0] == '?'
    ensures url[1..] == FormEncoding.Serialize(StringPairs(MergedParams(GetUrlConfig(q), newParams)))
    ensures FormEncoding.ParseForm(url[1..]) ==
      Some(FormEncoding.Utf8Pairs(StringPairs(MergedParams(GetUrlConfig(q), newParams))))
  {
    var pairs := StringPairs(MergedParams(GetUrlConfig(q), newParams));
    FormEncoding.SerializeReadsBack(pairs);
    var url := "?" + FormEncoding.Serialize(pairs);
    assert url[1..] == FormEncoding.Serialize(pairs);
    url
  }
}

=== FILE: strings.dfy ===
/** The handful of Go `strings` operations the ingestion scripts rely on:
    `HasPrefix`, `HasSuffix`, `Contains`, `ReplaceAll` and `ToLower`. */
module Strings {

  /** `w` occurs in `s` starting at index `p`. */
  predicate OccursAt(s: string, w: string, p: nat) {
    p + |w| <= |s| && s[p..p + |w|] == w
  }

  /** Go's `strings.HasPrefix`. */
  predicate StartsWith(s: string, w: string) {
    |w| <= |s| && s[..|w|] == w
  }

  /** Go's `strings.HasSuffix` (JavaScript's `String.prototype.endsWith`). */
  predicate EndsWith(s: string, w: string) {
    |w| <= |s| && s[|s| - |w|..] == w
  }

  /** Go's `strings.Contains`, written as the left-to-right scan it performs. */
  predicate Contains(s: string, w: string)
    decreases |s|
  {
    StartsWith(s, w) || (|s| > 0 && Contains(s[1..], w))
  }

  /** The scan finds `w` exactly when `w` occurs somewhere in `s`. */
  lemma {:induction false} ContainsIffOccurs(s: string, w: string)
    ensures Contains(s, w) <==> exists p: nat :: OccursAt(s, w, p)
    decreases |s|
  {
    if StartsWith(s, w) {
      assert OccursAt(s, w, 0);
    } else if |s| > 0 {
      ContainsIffOccurs(s[1..], w);
      if Contains(s[1..], w) {
        var p: nat :| OccursAt(s[1..], w, p);
        assert s[p + 1..p + 1 + |w|] == s[1..][p..p + |w|];
        assert OccursAt(s, w, p + 1);
      }
      if p: nat :| OccursAt(s, w, p) {
        assert p != 0;
        assert s[1..][p - 1..p - 1 + |w|] == s[p..p + |w|];
        assert OccursAt(s[1..], w, p - 1);
      }
    }
  }

  /** Go's `strings.ReplaceAll`: a left-to-right scan that replaces every
      non-overlapping occurrence of `pat` by `rep`. An empty `pat` matches at the
      start and after every character. */
  function ReplaceAll(s: string, pat: string, rep: string): (r: string)
    ensures |pat| > 0 && !Contains(s, pat) ==> r == s
    ensures |pat| > 0 && |pat| == |rep| ==> |r| == |s|
    decreases |s|
  {
    if |pat| == 0 then InsertAround(s, rep)
    else if StartsWith(s, pat) then rep + ReplaceAll(s[|pat|..], pat, rep)
    else if |s| == 0 then []
    else [s[0]] + ReplaceAll(s[1..], pat, rep)
  }

  /** `rep` before every character of `s` and once more at the end. */
  function InsertAround(s: string, rep: string): (r: string)
    ensures |r| == |s| + (|s| + 1) * |rep|
  {
    if |s| == 0 then rep else rep + [s[0]] + InsertAround(s[1..], rep)
  }

  /** If `pat` cannot begin inside `rep` and `rep` cannot begin inside `pat`, no
      occurrence of `pat` survives `ReplaceAll`: neither inside a replacement nor
      straddling one. */
  lemma {:induction false} ReplaceAllRemovesPattern(s: string, pat: string, rep: string)
    requires |pat| > 0 && |rep| > 0
    requires rep[0] !in pat && pat[0] !in rep
    ensures !Contains(ReplaceAll(s, pat, rep), pat)
    decreases |s|
  {
    var r := ReplaceAll(s, pat, rep);
    if StartsWith(s, pat) {
      ReplaceAllRemovesPattern(s[|pat|..], pat, rep);
      ForeignPrefixHidesNothing(rep, ReplaceAll(s[|pat|..], pat, rep), pat);
    } else if |s| > 0 {
      var t := ReplaceAll(s[1..], pat, rep);
      ReplaceAllRemovesPattern(s[1..], pat, rep);
      assert r[1..] == t;
      if StartsWith(r, pat) {
        assert s[0] == pat[0];
        assert StartsWith(t, pat[1..]) by {
          assert t[..|pat| - 1] == r[1..|pat|];
        }
        ReplaceAllKeepsPrefix(s[1..], pat[1..], pat, rep);
        assert false;
      }
    }
  }

  /** A prefix `w` made of characters of `pat` appears at the start of the
      replaced text only if it already appeared at the start of the input. */
  lemma {:induction false} ReplaceAllKeepsPrefix(t: string, w: string, pat: string, rep: string)
    requires |pat| > 0 && |rep| > 0 && rep[0] !in pat
    requires forall i :: 0 <= i < |w| ==> w[i] in pat
    requires StartsWith(ReplaceAll(t, pat, rep), w)
    ensures StartsWith(t, w)
    decreases |t|
  {
    var r := ReplaceAll(t, pat, rep);
    if |w| > 0 {
      assert r[0] == w[0] && w[0] in pat;
      ReplacedTextStartsWithReplacement(t, pat, rep);
      assert !StartsWith(t, pat) && |t| > 0;
      var r' := ReplaceAll(t[1..], pat, rep);
      assert r == [t[0]] + r';
      assert StartsWith(r', w[1..]) by {
        assert r'[..|w| - 1] == r[1..|w|];
      }
      ReplaceAllKeepsPrefix(t[1..], w[1..], pat, rep);
      assert t[..|w|] == [t[0]] + t[1..][..|w| - 1];
    }
  }

  lemma ReplacedTextStartsWithReplacement(t: string, pat: string, rep: string)
    requires |pat| > 0
    ensures StartsWith(t, pat) ==> StartsWith(ReplaceAll(t, pat, rep), rep)
  {
  }

  /** Putting in front of `b` a text in which `w` cannot start creates no
      occurrence of `w`. */
  lemma {:induction false} ForeignPrefixHidesNothing(a: string, b: string, w: string)
    requires |w| > 0 && w[0] !in a
    requires !Contains(b, w)
    ensures !Contains(a + b, w)
    decreases |a|
  {
    if |a| > 0 {
      assert (a + b)[0] == a[0];
      assert (a + b)[1..] == a[1..] + b;
      ForeignPrefixHidesNothing(a[1..], b, w);
    } else {
      assert a + b == b;
    }
  }

  /** No occurrence of `pat` starts inside `w` in the text `w + t`. */
  predicate NoMatchStartsIn(w: string, t: string, pat: string) {
    forall p :: 0 <= p < |w| ==> !OccursAt(w + t, pat, p)
  }

  /** A text in which no occurrence of `pat` starts passes through
      `ReplaceAll` unchanged. */
  lemma {:induction false} ReplaceAllSkipsPrefix(w: string, t: string, pat: string, rep: string)
    requires |pat| > 0 && NoMatchStartsIn(w, t, pat)
    ensures ReplaceAll(w + t, pat, rep) == w + ReplaceAll(t, pat, rep)
    decreases |w|
  {
    if |w| == 0 {
      assert w + t == t;
    } else {
      var s, w' := w + t, w[1..];
      assert s[0] == w[0] && s[1..] == w' + t;
      assert !StartsWith(s, pat) by {
        assert !OccursAt(s, pat, 0);
      }
      assert ReplaceAll(s, pat, rep) == [w[0]] + ReplaceAll(w' + t, pat, rep);
      NoMatchAfterDrop(w, t, pat);
      ReplaceAllSkipsPrefix(w', t, pat, rep);
      var r := ReplaceAll(t, pat, rep);
      assert [w[0]] + (w' + r) == ([w[0]] + w') + r;
      assert w == [w[0]] + w';
    }
  }

  /** Dropping the first character of `w` keeps the other starts free. */
  lemma NoMatchAfterDrop(w: string, t: string, pat: string)
    requires |w| > 0 && NoMatchStartsIn(w, t, pat)
    ensures NoMatchStartsIn(w[1..], t, pat)
  {
    var s, w' := w + t, w[1..];
    assert s[1..] == w' + t;
    forall p | 0 <= p < |w'|
      ensures !OccursAt(w' + t, pat, p)
    {
      assert !OccursAt(s, pat, p + 1);
      if p + |pat| <= |w' + t| {
        assert (w' + t)[p..p + |pat|] == s[p + 1..p + 1 + |pat|];
      }
    }
  }

  /** No occurrence can start in a text that lacks the pattern's first
      character. */
  lemma ForeignPrefixMatchesNothing(w: string, t: string, pat: string)
    requires |pat| > 0 && pat[0] !in w
    ensures NoMatchStartsIn(w, t, pat)
  {
    forall p | 0 <= p < |w|
      ensures !OccursAt(w + t, pat, p)
    {
      assert (w + t)[p] == w[p];
    }
  }

  /** When the pattern's first character occurs nowhere else in it, the
      occurrence at the front of `t` is the first one in `w + t` as soon as
      `w` itself does not contain the pattern: no earlier one can overlap it. */
  lemma FirstOccurrence(w: string, t: string, pat: string)
    requires |pat| > 0 && forall i :: 0 < i < |pat| ==> pat[i] != pat[0]
    requires !Contains(w, pat) && StartsWith(t, pat)
    ensures NoMatchStartsIn(w, t, pat)
  {
    ContainsIffOccurs(w, pat);
    forall p | 0 <= p < |w|
      ensures !OccursAt(w + t, pat, p)
    {
      if p + |pat| <= |w| {
        assert w[p..p + |pat|] == (w + t)[p..p + |pat|];
        assert !OccursAt(w, pat, p);
      } else if p + |pat| <= |w + t| {
        var j := |w| - p;
        assert (w + t)[p..p + |pat|][j] == (w + t)[|w|] == t[0] == pat[0] != pat[j];
      }
    }
  }

  /** An occurrence inside the left part of a text is one in that part. */
  lemma OccursInLeft(a: string, t: string, pat: string, p: nat)
    requires p + |pat| <= |a|
    ensures OccursAt(a + t, pat, p) ==> OccursAt(a, pat, p)
  {
    assert a[p..p + |pat|] == (a + t)[p..p + |pat|];
  }

  /** An occurrence inside the right part of a text is one in that part. */
  lemma OccursInRight(a: string, t: string, pat: string, p: nat)
    requires p >= |a|
    ensures OccursAt(a + t, pat, p) ==> OccursAt(t, pat, p - |a|)
  {
    var q := p - |a|;
    if p + |pat| <= |a + t| {
      assert t[q..q + |pat|] == (a + t)[p..p + |pat|];
    }
  }

  /** No occurrence of `pat` starts at `p` in `a + m + b` when none starts
      there in the part it would lie in and `m` is foreign to `pat`. */
  lemma SeamPosition(a: string, m: string, b: string, pat: string, p: nat)
    requires |pat| > 0 && |m| > 0 && forall i :: 0 <= i < |m| ==> m[i] !in pat
    requires p + |pat| <= |a| ==> !OccursAt(a, pat, p)
    requires p >= |a| + |m| ==> !OccursAt(b, pat, p - |a| - |m|)
    ensures !OccursAt(a + m + b, pat, p)
  {
    var s := a + m + b;
    if p + |pat| <= |a| {
      OccursInLeft(a, m + b, pat, p);
      assert s == a + (m + b);
    } else if p >= |a| + |m| {
      OccursInRight(a + m, b, pat, p);
    } else if p + |pat| <= |s| {
      var j := if p < |a| then |a| else p;
      assert s[p..p + |pat|][j - p] == s[j] == m[j - |a|];
      assert m[j - |a|] !in pat;
    }
  }

  /** Joining two texts without `pat` by a non-empty middle none of whose
      characters appears in `pat` creates no occurrence of it. */
  lemma ForeignSeamHidesNothing(a: string, m: string, b: string, pat: string)
    requires |pat| > 0 && |m| > 0 && forall i :: 0 <= i < |m| ==> m[i] !in pat
    requires !Contains(a, pat) && !Contains(b, pat)
    ensures !Contains(a + m + b, pat)
  {
    ContainsIffOccurs(a, pat);
    ContainsIffOccurs(b, pat);
    ContainsIffOccurs(a + m + b, pat);
    forall p: nat
      ensures !OccursAt(a + m + b, pat, p)
    {
      SeamPosition(a, m, b, pat, p);
    }
  }

  /** With a replacement as long as the pattern, a character that no
      occurrence of the pattern covers keeps its place and its value. */
  lemma {:induction false} ReplaceAllKeepsUncovered(s: string, pat: string, rep: string, i: nat)
    requires |pat| > 0 && |pat| == |rep| && i < |s|
    requires forall p: nat :: p <= i < p + |pat| ==> !OccursAt(s, pat, p)
    ensures ReplaceAll(s, pat, rep)[i] == s[i]
    decreases |s|
  {
    if StartsWith(s, pat) {
      assert OccursAt(s, pat, 0) by {
        assert s[0..|pat|] == s[..|pat|];
      }
      UncoveredAfterDrop(s, pat, i, |pat|);
      ReplaceAllKeepsUncovered(s[|pat|..], pat, rep, i - |pat|);
    } else if i > 0 {
      UncoveredAfterDrop(s, pat, i, 1);
      ReplaceAllKeepsUncovered(s[1..], pat, rep, i - 1);
    }
  }

  /** Dropping `k` leading characters keeps a position uncovered. */
  lemma UncoveredAfterDrop(s: string, pat: string, i: nat, k: nat)
    requires k <= i < |s|
    requires forall p: nat :: p <= i < p + |pat| ==> !OccursAt(s, pat, p)
    ensures forall p: nat :: p <= i - k < p + |pat| ==> !OccursAt(s[k..], pat, p)
  {
    forall p: nat | p <= i - k < p + |pat|
      ensures !OccursAt(s[k..], pat, p)
    {
      var q := p + k;
      assert !OccursAt(s, pat, q);
      if p + |pat| <= |s[k..]| {
        assert s[k..][p..p + |pat|] == s[q..q + |pat|];
      }
    }
  }

  lemma ReplaceAllAtMatch(t: string, pat: string, rep: string)
    requires |pat| > 0
    ensures ReplaceAll(pat + t, pat, rep) == rep + ReplaceAll(t, pat, rep)
  {
    assert (pat + t)[..|pat|] == pat && (pat + t)[|pat|..] == t;
  }

  /** ASCII upper-case letters map to lower case; every other character is
      kept (Go's Unicode case mapping is not modelled). */
  function LowerChar(c: char): char {
    if 'A' <= c <= 'Z' then (c as int + 32) as char else c
  }

  function UpperChar(c: char): char {
    if 'a' <= c <= 'z' then (c as int - 32) as char else c
  }

  /** Go's `strings.ToLower`, restricted to the ASCII letters. */
  function ToLower(s: string): (r: string)
    ensures |r| == |s|
    ensures forall i :: 0 <= i < |s| ==> r[i] == LowerChar(s[i])
    ensures forall i :: 0 <= i < |s| ==> !('A' <= r[i] <= 'Z')
  {
    seq(|s|, i requires 0 <= i < |s| => LowerChar(s[i]))
  }

  function ToUpper(s: string): (r: string)
    ensures |r| == |s|
    ensures forall i :: 0 <= i < |s| ==> r[i] == UpperChar(s[i])
    ensures forall i :: 0 <= i < |s| ==> !('a' <= r[i] <= 'z')
  {
    seq(|s|, i requires 0 <= i < |s| => UpperChar(s[i]))
  }

  lemma ToLowerConcat(a: string, b: string)
    ensures ToLower(a + b) == ToLower(a) + ToLower(b)
  {
  }

  /** Lower-casing forgets the case a text was written in. */
  lemma LowerForgetsCase(s: string)
    ensures ToLower(ToUpper(s)) == ToLower(s)
    ensures ToLower(ToLower(s)) == ToLower(s)
  {
  }
}

=== FILE: url_config.dfy ===
/** `getUrlConfig` and `getTimeFormatOpt`: the status page's two URL
    settings, the clock `mode` and the chart's `end` in hours, with their
    defaults. */
module UrlConfig {
  import opened Wrappers
  import opened Decimal

  /** A JavaScript number as this page produces it: an integer or NaN. */
  datatype JsNumber = NaN | Int(value: int)

  /** The page URL's decoded query parameters, in order (names may repeat). */
  type Query = seq<(string, string)>

  /** `URLSearchParams.get`: the value of the first parameter with that name. */
  function Get(q: Query, name: string): (v: Option<string>)
    ensures v.None? <==> forall i :: 0 <= i < |q| ==> q[i].0 != name
    ensures v.Some? ==> exists i ::
      (0 <= i < |q| && q[i] == (name, v.value) && forall j :: 0 <= j < i ==> q[j].0 != name)
  {
    if |q| == 0 then None
    else if q[0].0 == name then Some(q[0].1)
    else Get(q[1..], name)
  }

  /** `value || fallback` for a value that is a string or null: both null and
      the empty string are falsy. */
  function OrElse(v: Option<string>, fallback: string): string {
    if v.None? || v.value == "" then fallback else v.value
  }

  const DefaultMode := "12h"
  const DefaultEnd := "48"

  /** JavaScript's white space and line terminators, which `parseInt` skips. */
  predicate IsJsSpace(c: char) {
    || c == '\t' || c == '\n' || c == '\U{B}' || c == '\U{C}' || c == '\r' || c == ' '
    || c == '\U{A0}' || c == '\U{1680}' || ('\U{2000}' <= c <= '\U{200A}')
    || c == '\U{2028}' || c == '\U{2029}' || c == '\U{202F}' || c == '\U{205F}'
    || c == '\U{3000}' || c == '\U{FEFF}'
  }

  function TrimStart(s: string): (t: string)
    ensures |t| <= |s| && t == s[|s| - |t|..]
    ensures |t| > 0 ==> !IsJsSpace(t[0])
  {
    if |s| > 0 && IsJsSpace(s[0]) then TrimStart(s[1..]) else s
  }

  /** The longest prefix of decimal digits. */
  function DigitPrefix(s: string): (d: string)
    ensures |d| <= |s| && AllDigits(d) && d == s[..|d|]
    ensures |d| < |s| ==> !IsDigit(s[|d|])
  {
    if |s| > 0 && IsDigit(s[0]) then [s[0]] + DigitPrefix(s[1..]) else []
  }

  /** `parseInt(s, 10)`: skip leading white space, read an optional sign and
      then as many decimal digits as there are; NaN when there are none. */
  function ParseInt10(s: string): JsNumber {
    var t := TrimStart(s);
    var negative := |t| > 0 && t[0] == '-';
    var u := if |t| > 0 && (t[0] == '-' || t[0] == '+') then t[1..] else t;
    var d := DigitPrefix(u);
    var magnitude: int := if |d| == 0 then 0 else Value(d);
    if |d| == 0 then NaN
    else if negative then Int(-magnitude)
    else Int(magnitude)
  }

  /** A decimal numeral followed by anything that is not a digit reads as
      its value, so `parseInt` of a printed natural gives it back. */
  lemma ParseNumeral(digits: string, rest: string)
    requires |digits| > 0 && AllDigits(digits)
    requires |rest| > 0 ==> !IsDigit(rest[0])
    ensures ParseInt10(digits + rest) == Int(Value(digits))
  {
    var s := digits + rest;
    assert s[0] == digits[0] && IsDigit(s[0]);
    assert TrimStart(s) == s by {
      assert !IsJsSpace(s[0]);
    }
    assert s[0] != '-' && s[0] != '+';
    DigitPrefixOfNumeral(digits, rest);
  }

  /** A minus sign and a decimal numeral read as the negated value. */
  lemma ParseNegativeNumeral(s: string, n: nat)
    requires |s| > 1 && s[0] == '-' && AllDigits(s[1..]) && Value(s[1..]) == n
    ensures ParseInt10(s) == Int(-(n as int))
  {
    assert TrimStart(s) == s by {
      assert !IsJsSpace(s[0]);
    }
    DigitPrefixOfNumeral(s[1..], "");
    assert s[1..] + "" == s[1..];
  }

  /** The decimal text of a natural number reads back as that number. */
  lemma ReadsShow(n: nat)
    ensures ParseInt10(Show(n)) == Int(n)
  {
    ValueOfShow(n);
    ParseNumeral(Show(n), "");
    assert Show(n) + "" == Show(n);
  }

  /** A minus sign before the decimal text of `n` reads back as `-n`. */
  lemma ReadsNegatedShow(n: nat)
    ensures ParseInt10("-" + Show(n)) == Int(-(n as int))
  {
    var s := "-" + Show(n);
    assert s[0] == '-' && s[1..] == Show(n);
    ValueOfShow(n);
    ParseNegativeNumeral(s, n);
  }

  /** The text "NaN" has no digits, so it reads as NaN. */
  lemma ParseNaNText()
    ensures ParseInt10("NaN") == NaN
  {
    var s := "NaN";
    assert !IsJsSpace(s[0]) && !IsDigit(s[0]);
    assert TrimStart(s) == s;
    assert DigitPrefix(s) == [];
  }

  lemma {:induction false} DigitPrefixOfNumeral(digits: string, rest: string)
    requires AllDigits(digits)
    requires |rest| > 0 ==> !IsDigit(rest[0])
    ensures DigitPrefix(digits + rest) == digits
    decreases |digits|
  {
    if |digits| > 0 {
      assert (digits + rest)[1..] == digits[1..] + rest;
      DigitPrefixOfNumeral(digits[1..], rest);
    } else {
      assert digits + rest == rest;
    }
  }

  lemma DefaultEndIs48()
    ensures ParseInt10(DefaultEnd) == Int(48)
  {
    assert DefaultEnd == "48" + "";
    ParseNumeral("48", "");
    assert Value("48") == 48 by {
      assert "48"[..1] == "4";
    }
  }

  /** The settings read from the URL. */
  datatype Config = Config(mode: string, end: JsNumber)

  /** `getUrlConfig()`: `mode` is taken verbatim unless absent or empty
      ("12h" then); `end` is `parseInt` of the parameter, or 48. */
  function GetUrlConfig(q: Query): (c: Config)
    ensures Get(q, "mode").None? || Get(q, "mode") == Some("") ==> c.mode == DefaultMode
    ensures Get(q, "mode").Some? && Get(q, "mode").value != "" ==> c.mode == Get(q, "mode").value
    ensures Get(q, "end").None? || Get(q, "end") == Some("") ==> c.end == Int(48)
    ensures Get(q, "end").Some? && Get(q, "end").value != "" ==> c.end == ParseInt10(Get(q, "end").value)
  {
    DefaultEndIs48();
    Config(OrElse(Get(q, "mode"), DefaultMode), ParseInt10(OrElse(Get(q, "end"), DefaultEnd)))
  }

  /** An `end` written as a decimal numeral is read in base 10. */
  lemma EndNumeral(q: Query)
    requires Get(q, "end").Some? && |Get(q, "end").value| > 0 && AllDigits(Get(q, "end").value)
    ensures GetUrlConfig(q).end == Int(Value(Get(q, "end").value))
  {
    var v := Get(q, "end").value;
    ParseNumeral(v, "");
    assert v + "" == v;
  }

  /** The time-of-day format options of `getTimeFormatOpt`. */
  datatype TimeFormat = TimeFormat(hour: string, minute: string, hour12: bool)

  /** `getTimeFormatOpt()`: numeric hours and minutes, with a 12-hour clock
      exactly when the mode is absent, empty or "12h"; "24h", or any other
      value, gives the 24-hour clock. */
  function GetTimeFormatOpt(q: Query): (f: TimeFormat)
    ensures f.hour12 <==> Get(q, "mode").None? || Get(q, "mode") == Some("") || Get(q, "mode") == Some("12h")
    ensures f.hour == "numeric" && f.minute == "numeric"
  {
    TimeFormat("numeric", "numeric", GetUrlConfig(q).mode == "12h")
  }
}

=== FILE: wrappers.dfy ===
/** Failure-carrying result types shared by every module of the model. */
module Wrappers {

  /** A value that may be absent: a JavaScript `null`/`undefined`, a Go "not found". */
  datatype Option<+T> = None | Some(value: T)

  /** The outcome of an operation that returns either a value or an error,
      as Go functions return `(value, error)` pairs. */
  datatype Result<+T, +E> = Success(value: T) | Failure(error: E)
}
